=== FILE: README.md ===
# Fuel Command Center — a Dafny model of its core

HSTC-Fuel is a Streamlit application that keeps the fuel log of a fleet in
a Google spreadsheet. Three worksheets are involved:

- "Assets" is the asset directory.
- "Tanker Dispensing" records fuel that a mobile tanker gives to an asset.
- "Tanker Receipts" records fuel that a tanker takes in from an outside station.

The application has three pages:

- a log-entry page that appends dispense and refill rows;
- an analytics dashboard;
- a tanker-inventory page that works out each tanker's balance.

This project models the data logic of `app.py`. It covers:

- the category normaliser and its alias table;
- loading the directory;
- the search labels and the options of the asset picker;
- the tanker roster;
- the meter unit;
- the rows written by `append_dict`;
- the numeric coercion of amount cells;
- the tanker balance engine and its gauge;
- the dashboard figures.

The model is split into modules that follow the program's structure:

| file | module | what it holds |
|---|---|---|
| `results.dfy` | `Results` | `Option` and `Result` |
| `sequences.dfy` | `Sequences` | repetition-freeness, first occurrence, `unique()` |
| `ascii_text.dfy` | `AsciiText` | `strip`, `lower`, `title` and `replace` as the normaliser uses them |
| `categories.dfy` | `Categories` | the canonical categories, the alias table, `normalize_category` |
| `sheets.dfy` | `Sheets` | worksheets and the tables read from them, the two log headers, `ensure_header` and the `append_dict` projection |
| `numbers.dfy` | `Numbers` | `to_numeric(errors="coerce").fillna(0)` for one cell |
| `directory.dfy` | `Directory` | the directory load, search labels, picker options, tanker roster |
| `log_entry.dfy` | `LogEntry` | selection, meter unit, dispense and refill rows |
| `inventory.dfy` | `Inventory` | per-tanker totals, balances, the gauge |
| `analytics.dfy` | `Analytics` | total fuel, entries, active assets, groupings, top five, recent rows |

## How the sheets are modelled

A worksheet is a `Worksheet`: its first row and the records below it.
`ws_to_df` turns it into a `Table`, its column names and its records; a
sheet without records, even one that holds a header row, reads as a table
with neither (`app.py:68-70`). A record maps each column to the text of its
cell. `append_dict` first resets a sheet whose first row is not the header,
then appends the record's row (`app.py:73-84`). That row holds one cell per
header column, so the record reads back as its projection onto the header:
a header column the record lacks reads back blank, and a key outside the
header is dropped (`app.py:82-83`).

A pandas step that raises is modelled as a `Result` error, of type `Fault`.
There are two kinds:

- `ColumnMissing(c)`: `df[c]` on a frame without column `c` raises `KeyError`.
- `AmountColumnMissing(c)`: `pd.to_numeric(df.get(c), errors="coerce").fillna(0)`
  on a non-empty frame without column `c`. Here `get` returns `None`,
  `to_numeric` makes a scalar NaN, and the scalar has no `fillna`, so the
  page fails.

In the balance engine:

- A non-empty log without its amount column fails when the amounts are
  coerced (`app.py:321-329`): `Inventory.TankerBalances` returns
  `AmountColumnMissing`, checking the receipts log first.
- A log without its key column, "Tanker No" or "Source Tanker", gives 0 for
  every tanker, because the code checks for that column (`app.py:337`,
  `app.py:340`).

One observation about `normalize_category`:

- The title-case fallback at `app.py:99-100` can never decide the result over
  ASCII text. If `raw.title()` is a canonical category, then the alias key of
  `raw` is already in the alias table, and the alias branch returns first.
- `Categories.TitleFallbackSubsumed` proves this. The model keeps the branch
  as the code has it.

## Model

| member | source | states |
|---|---|---|
| `AsciiText.Strip` | app.py:91 | `str.strip()`: the result is a slice of the input with only whitespace around it and none at its ends |
| `AsciiText.StripIdempotent` | app.py:91 | stripping twice is stripping once |
| `AsciiText.StripEmptyIffAllSpace` | app.py:91 | the stripped text is empty exactly when the input is all whitespace |
| `AsciiText.StripAround` | app.py:91 | whitespace around a trimmed core is removed exactly |
| `AsciiText.Lower` | app.py:92 | `str.lower()`: same length, no upper-case letter left, each upper-case letter replaced by its lower-case partner and every other character kept |
| `AsciiText.Title` | app.py:99 | `str.title()`: a letter is upper-case exactly when it starts a run of letters; everything else is kept up to case |
| `AsciiText.ReplaceChar` | app.py:92 | `replace("&", "/")`: same length, every `&` becomes `/` in place, every other character kept in place, so no `&` is left |
| `AsciiText.ReplaceCharStable` | app.py:92 | replacing a second time changes nothing, and replacing distributes over concatenation |
| `AsciiText.ReplaceAll` | app.py:92 | `replace(" and ", "/")` leaves text without the pattern unchanged, and brings in no character that is in neither the text nor the replacement |
| `AsciiText.ReplaceAllFirst` | app.py:92 | the first occurrence is replaced: text before it is kept, the occurrence becomes the replacement, and scanning resumes behind it |
| `AsciiText.ReplaceAllFront` | app.py:92 | an occurrence at the front becomes the replacement, followed by the rest replaced |
| `AsciiText.ReplaceAllSkip` | app.py:92 | a prefix that cannot start an occurrence is copied unchanged |
| `AsciiText.RemoveChar` | app.py:93 | `replace(" ", "")`: no space is left, every other character stays present, and text without spaces is unchanged |
| `AsciiText.RemoveCharCounts` | app.py:93 | deleting spaces removes every space and keeps each other character exactly as many times as it occurs |
| `AsciiText.RemoveCharAppend` | app.py:93 | deleting spaces distributes over concatenation, so order is kept |
| `Categories.AliasGet` | app.py:31-43 | every alias maps to one of the five canonical categories |
| `Categories.CategoryKey` | app.py:92-93 | the lookup key contains no space |
| `Categories.CategoryKeyShape` | app.py:92-93 | the key has no space, no `&` and no upper-case letter; a text without spaces and `&` only has its case lowered |
| `Categories.NormalizeCategory` | app.py:87-102 | missing or blank input gives ""; otherwise the result is canonical or the stripped input; the result is always trimmed |
| `Categories.CanonicalKey` | app.py:30-43 | every canonical category is its own alias |
| `Categories.CanonicalFixedPoint` | app.py:30-43 | the normaliser leaves each canonical category as it is |
| `Categories.NormalizeIdempotent` | app.py:87-102 | normalising a normalised category changes nothing |
| `Categories.AliasHitIsCanonical` | app.py:95-97 | when the key is an alias, the result is that alias's canonical category |
| `Categories.PassThrough` | app.py:102 | text that is neither an alias nor a title-cased category comes back stripped |
| `Categories.TitleFallbackSubsumed` | app.py:99-100 | whenever the title-case check would succeed, the alias lookup has already succeeded with the same category |
| `Categories.NormalizeBlank` | app.py:88-91 | missing, empty and blank categories all give "" |
| `Categories.NormalizeVehicles` | app.py:33 | "vehicles" gives Vehicle |
| `Categories.NormalizeTankers` | app.py:42 | "tankers" gives Tanker |
| `Categories.NormalizeUpperCaseBus` | app.py:91-97 | " BUS " gives Bus |
| `Categories.NormalizeAmpersand` | app.py:39 | "Machine & Equipment" gives Equipment |
| `Categories.NormalizeAndWord` | app.py:92 | "Machine and Equipment" gives Equipment |
| `Categories.NormalizeSlash` | app.py:39 | "Machine/Equipment" gives Equipment |
| `Categories.NormalizeUnknown` | app.py:102 | "  Truck " passes through as "Truck" |
| `Sequences.IndexOf` | app.py:194 | the first position holding the value, or the length when there is none |
| `Sequences.Dedupe` | app.py:183 | `unique()`: no repeats, exactly the values of the input, in order of first appearance |
| `Sequences.DedupeSnoc` | app.py:183 | one more value is appended to the distinct values exactly when it is new |
| `Sequences.DedupeShorter` | app.py:183 | deduplication never lengthens |
| `Sequences.DistinctCardinality` | app.py:288 | a sequence without repeats has as many distinct values as elements |
| `Sheets.ReadSheet` | app.py:68-70 | the table is empty (`DataFrame.empty`) exactly when the sheet has no records or no header; a sheet without records reads as a table with no columns |
| `Sheets.AppendRecord` | app.py:73-84 | the sheet ends up under the header; the last record has exactly the header's columns, each holding the record's cell or blank; earlier records survive only when the header was already there |
| `Sheets.Stored` | app.py:82-83 | the record read back from the written row has exactly the header's columns, each holding the given record's cell or blank |
| `Sheets.StoredHeaderRecord` | app.py:82-83 | a record keyed by exactly the header columns is stored unchanged |
| `Sheets.ReadAfterAppend` | app.py:68-84 | reading back after an append gives the surviving records and the stored record under the header, never an empty table |
| `Sheets.ProjectRow` | app.py:80-84 | the written row has one cell per header column: the record's value for that column, or blank |
| `Sheets.RecordOf` | app.py:68-70 | reading a row back under its header gives a record keyed by exactly the header columns |
| `Sheets.RecordOfAt` | app.py:68-70 | each header column reads back the cell at its own position |
| `Sheets.ProjectReadBack` | app.py:68-83 | the written row read back under its header maps every header column to the record's value or the blank, even with repeated header columns |
| `Sheets.ProjectRoundTrip` | app.py:80-84 | a record keyed by exactly the header columns is recovered from the row written for it |
| `Sheets.ProjectIgnoresOtherKeys` | app.py:80-84 | keys of the record that are not header columns never reach the sheet: the written row equals the one written for the record cut down to the header |
| `Numbers.DecimalValue` | app.py:322-324 | the value of digits, a point and digits is never negative, and without fraction digits it is the whole number |
| `Numbers.ParseDecimal` | app.py:322-329 | text parses exactly when it is a plain decimal (an optional sign, digits, at most one point, at least one digit), so "1.2.3", "--5", "5-" and "." coerce to 0; without a minus sign the value is not negative |
| `Numbers.ParseUnsignedAccepts` | app.py:322-329 | unsigned text parses exactly when it is digits with at most one point and at least one digit |
| `Numbers.ParseFraction` | app.py:322-324 | digits, a point and digits, at least one digit, parse to their decimal value |
| `Numbers.ParseWhole` | app.py:322-324 | digits alone parse to their whole value |
| `Numbers.ParseSignChar` | app.py:322-324 | a minus sign negates the value of the unsigned decimal behind it, a plus sign keeps it, and text that is not a number stays unreadable |
| `Numbers.NatText` | app.py:264 | a whole amount is written as a non-empty string of digits |
| `Numbers.NatTextValue` | app.py:264 | those digits have the value of the amount |
| `Numbers.ParseNatText` | app.py:322-324 | a whole amount written to the sheet parses back to itself |
| `Numbers.CoerceNonNumeric` | app.py:327-329 | text with a character no number has is coerced to 0 |
| `Directory.LoadDirectory` | app.py:155-157 | with a Category column, each record's category is normalised and nothing else changes; without one the table is kept |
| `Directory.LoadDirectoryIdempotent` | app.py:155-157 | loading an already loaded directory changes nothing |
| `Directory.NormalizeRowIdempotent` | app.py:157 | normalising one record twice is normalising it once |
| `Directory.SearchLabel` | app.py:109-117 | the label is the Fleet No, the bar separator, the Description, " (", the Plate Number and ")", each in its own slice |
| `Directory.BuildSearchLabels` | app.py:105-118 | an empty table is returned as it is; otherwise a missing Fleet No, then Description, then Plate Number column fails with that column; otherwise each record gains its label and keeps its other cells, and the column list gains exactly `Search Label` |
| `Directory.BuildSearchLabelsIdempotent` | app.py:105-118 | labelling a labelled directory changes nothing |
| `Directory.LabelNeverBlank` | app.py:183 | no label is the blank option |
| `Directory.SearchOptions` | app.py:183 | the picker offers the blank option first, then every label exactly once, in order of first appearance |
| `Directory.SelectAsset` | app.py:193-194 | the blank option selects nothing; a label selects the first record that carries it |
| `Directory.TankerFleetNos` | app.py:122 | a Fleet No is listed exactly when some record with Category "Tanker" carries it |
| `Directory.TankerFleetNosAppend` | app.py:122 | the tanker list keeps table order over stacked tables |
| `Directory.TankerOptions` | app.py:121-127 | a missing Category or Fleet No column fails; otherwise the list is never empty: the directory's tankers if any, else the default roster |
| `LogEntry.MeterUnit` | app.py:212-214 | the unit is "Hours" exactly when a category is selected and it is Equipment, Machine or Tanker; "Km" otherwise |
| `LogEntry.HoursCategoryIsStored` | app.py:212-214 | a category read in hours is a fixed point of the normaliser |
| `LogEntry.MeterUnitOfLoadedCategory` | app.py:155-157 | a directory category reads in hours exactly when its alias key maps to Equipment, Machine or Tanker |
| `LogEntry.MachinesReadInHours` | app.py:212-214 | a directory category "machines" is read in hours |
| `LogEntry.MachinesNormalized` | app.py:38 | "machines" gives Machine |
| `LogEntry.VehiclesReadInKm` | app.py:212-214 | a directory category "vehicles" is read in kilometres |
| `LogEntry.Select` | app.py:189-203 | the blank option selects nothing; a label selects the first record carrying it; a directory without Category fails when the record's category is read |
| `LogEntry.DispenseEntry` | app.py:224-235 | the dispense record has exactly the columns of the dispensing log |
| `LogEntry.DispenseEntryFields` | app.py:224-235 | each column holds the asset's Fleet No and Category, its Asset ID and Description or blank, the chosen tanker, the litres and meter as typed, and "Hours" exactly for a meter-hour category |
| `LogEntry.SubmitDispense` | app.py:220-237 | refused exactly when no asset with a Fleet No is selected; otherwise ten cells in header order with Fleet No, source tanker, litres and meter unit in their columns |
| `LogEntry.DispenseRoundTrip` | app.py:224-237 | the dispense row read back under its header is the record the form built |
| `LogEntry.ReceiptEntry` | app.py:259-265 | the refill record has exactly the columns of the receipts log, with the tanker, the station and the litres in theirs |
| `LogEntry.LogRefill` | app.py:258-266 | five cells in header order with tanker, station and litres in their columns |
| `LogEntry.ReceiptRoundTrip` | app.py:258-266 | the receipt row read back under its header is the record the form built |
| `LogEntry.StoredReceipt` | app.py:259-266 | the receipt as the inventory page reads it has every receipt column, with the tanker and the litres as digits |
| `Inventory.TotalAll` | app.py:283 | an empty column sums to 0; non-negative amounts give a non-negative total |
| `Inventory.TotalAllAppend` | app.py:283 | the column total over stacked logs is the sum of their totals |
| `Inventory.Filter` | app.py:338 | the kept records all carry the key, come from the log, and include every record of the log that carries it |
| `Inventory.FilterAppend` | app.py:337-343 | filtering stacked logs filters each in turn, so every matching record is kept once and in log order |
| `Inventory.TotalWhere` | app.py:337-343 | records for other keys add nothing; non-negative amounts give a non-negative total |
| `Inventory.TotalWhereIsFilteredSum` | app.py:337-343 | the keyed total equals the column total of the filtered log |
| `Inventory.TotalWhereAppend` | app.py:337-343 | the total over stacked logs is the sum of their totals |
| `Inventory.TotalWhereSnoc` | app.py:337-343 | one more record adds its own contribution |
| `Inventory.TankerIn` | app.py:337-338 | an empty receipts log, or one without Tanker No, gives 0; otherwise the Fuel In total of the records whose Tanker No is the tanker |
| `Inventory.TankerOut` | app.py:340-343 | an empty dispensing log, or one without Source Tanker, gives 0; otherwise the Fuel Out total of the records whose Source Tanker is the tanker |
| `Inventory.GaugeLevel` | app.py:352-353 | the gauge lies in [0, 1]; it is balance / 30000 inside the range, 0 at or below empty, 1 at or above full |
| `Inventory.GaugeMonotone` | app.py:352-353 | more fuel never shows a lower gauge |
| `Inventory.ReadingOf` | app.py:333-354 | balance = fuel in − fuel out, and the gauge is the clamped level of that balance |
| `Inventory.TankerBalances` | app.py:321-345 | fails exactly when a non-empty log lacks its amount column, naming the receipts' `Fuel In (L)` first and the dispenses' `Fuel Out (L)` when only that is missing; otherwise one reading per default tanker, in roster order |
| `Inventory.RefillAdds` | app.py:258-266 | logging a refill of n litres raises that tanker's fuel in by exactly n, counting from 0 when the sheet had no receipts header |
| `Inventory.RefillLeavesOthers` | app.py:258-266 | a refill leaves every other tanker's fuel in as it was |
| `Inventory.DispenseSubtracts` | app.py:340-343 | logging a dispense from a tanker raises its fuel out by the record's coerced litres |
| `Inventory.OtherReceiptIgnored` | app.py:338 | a receipt for another tanker changes nothing |
| `Inventory.OtherDispenseIgnored` | app.py:341-343 | a dispense from another tanker changes nothing |
| `Inventory.OffRosterRowsIgnored` | app.py:331-345 | with both amount columns present, a receipt and a dispense naming tankers outside the default roster leave the whole inventory page unchanged |
| `Inventory.UnreadableAmountIgnored` | app.py:327-329 | a dispense whose amount is not a number counts as 0 litres |
| `Inventory.WorkedExample` | app.py:333-353 | 10000 litres in, then 3000 and 1500 out, gives 5500 litres and a gauge of 5500/30000 |
| `Analytics.Nunique` | app.py:288 | active assets = the number of distinct Fleet Nos, never more than the number of records |
| `Analytics.SumOverSnoc` | app.py:296 | a new record raises the per-key totals by its amount exactly when its key is counted |
| `Analytics.AbsentKeyAddsNothing` | app.py:296 | a key no record carries has total 0 |
| `Analytics.GroupsCoverTotal` | app.py:283-303 | the per-key totals over the distinct keys add up to the total fuel |
| `Analytics.GroupTotals` | app.py:296 | one group per distinct key, and a group for every record's key, each holding that key's total |
| `Analytics.ArgMax` | app.py:304 | a group with the largest total |
| `Analytics.Top` | app.py:301-305 | `sort_values(ascending=False).head(k)`: the k largest groups, largest first, drawn from the groups; each group left out is no larger than each one kept |
| `Analytics.Recent` | app.py:311 | at most n records, the i-th being the i-th from the end of the log |
| `Analytics.RecentSnoc` | app.py:311 | a newly logged record heads the recent list and the earlier list follows it |
| `Analytics.RecentReverses` | app.py:311 | with room for every record the list is the log reversed |
| `Analytics.Dashboard` | app.py:273-312 | an empty log shows nothing; a missing Fuel Out column fails first, then Fleet No, then Category; otherwise the total, count and active assets, the per-category groups, a top five drawn from the per-asset groups in descending order, and the ten newest records |
| `Analytics.ChartsAddUp` | app.py:283-303 | the category chart and the per-asset totals each add up to the total fuel |

## Left out

- Google Sheets and Streamlit I/O is not modelled. This covers authorisation,
  opening or creating worksheets, widgets, charts and messages. A worksheet
  is a `Worksheet` value; a write is the returned row or sheet.
- The secrets check at startup is not modelled. Neither is the log-entry page
  stopping on an empty directory, which is a UI guard.
- Timestamps and dates are opaque text parameters, because clocks cannot be
  modelled.
- Cells are text. gspread returns numeric cells as numbers, which `astype(str)`
  and the `==` comparisons would treat differently. Numbers are represented
  only by their decimal text.
- Amounts are exact reals, not IEEE doubles. Rounding in `sum()` and the
  `f"{x:,.0f}"` display formatting are not modelled.
- `Numbers.ParseDecimal` accepts plain decimals only. `to_numeric` also accepts
  exponents, `inf`/`nan` spellings and surrounding whitespace; these are not
  modelled, and the model reads them as 0.
- `AsciiText.RemoveChar`: its own contract states only which characters
  remain. How many times each remains is stated by
  `AsciiText.RemoveCharCounts`, and the order by `AsciiText.RemoveCharAppend`.
  Both are kept out of the function's contract so that the proofs about
  literal categories stay small.
- `AsciiText.ReplaceAll`: its own contract covers text without the pattern.
  What happens at an occurrence is stated by `AsciiText.ReplaceAllFront`,
  `AsciiText.ReplaceAllSkip` and `AsciiText.ReplaceAllFirst`.
- `AsciiText.ReplaceAllFirst`: covers a first occurrence preceded by text
  without the pattern's first character, which is enough for the worked
  categories in `categories.dfy`. A prefix that holds a space not starting
  " and " is not covered by a general lemma.
- `Categories.CategoryKey`: its own contract states only that the key has no
  space. `Categories.CategoryKeyShape` adds that it has no `&` and no
  upper-case letter, and that a text without spaces and `&` is only lowered.
- `AsciiText.Lower` and `AsciiText.Title`: case mapping is ASCII-only. Python's
  `lower()` and `title()` also map non-ASCII letters; those are left unchanged
  here.
- `Analytics.GroupTotals`: lists groups in order of first appearance, whereas
  `groupby` sorts its keys. The chart order is not modelled.
- `Analytics.Top`: on equal totals it keeps the earlier group. The tie order of
  `sort_values` is not modelled.
- `Analytics.Recent`: returns the records as read. The Fuel Out column of the
  displayed frame has already been coerced to numbers; that is not modelled.
- `LogEntry.SubmitDispense`: the guard is modelled on text cells. A numeric
  Fleet No of 0, which Python also treats as false, cannot be represented.
- `Inventory.DispenseSubtracts`: stated for any record naming the tanker, not
  for the written dispense row, whose litres are a real number rather than
  the digits the sheet would show.

=== FILE: analytics.dfy ===
/** The "Analytics Dashboard" page: total fuel, transaction count, active
    assets, consumption per category, the five largest consumers and the
    most recent transactions of the dispensing log. */
module Analytics {
  import opened Results
  import opened Sequences
  import opened Sheets
  import opened Numbers
  import opened Directory
  import opened Inventory

  /** The cells of one column, in table order. */
  function ColumnCells(rows: seq<Row>, column: string): (cells: seq<string>)
    ensures |cells| == |rows|
    ensures forall i :: 0 <= i < |rows| ==> cells[i] == Cell(rows[i], column)
  {
    seq(|rows|, i requires 0 <= i < |rows| => Cell(rows[i], column))
  }

  /** The number of distinct values in a column: `Series.nunique()`. */
  function Nunique(rows: seq<Row>, column: string): (n: nat)
    ensures n == |set i | 0 <= i < |rows| :: Cell(rows[i], column)|
    ensures n <= |rows|
  {
    var d := Dedupe(ColumnCells(rows, column));
    DistinctCardinality(d);
    assert (set x | x in d) == (set i | 0 <= i < |rows| :: Cell(rows[i], column)) by {
      forall x | x in d ensures exists i :: 0 <= i < |rows| && Cell(rows[i], column) == x {
        var i :| 0 <= i < |rows| && ColumnCells(rows, column)[i] == x;
      }
    }
    DedupeShorter(ColumnCells(rows, column));
    |d|
  }

  /** The per-key totals of `keys` added up. */
  function SumOver(keys: seq<string>, rows: seq<Row>, keyColumn: string, amountColumn: string): real
    decreases |keys|
  {
    if |keys| == 0 then 0.0
    else SumOver(keys[..|keys| - 1], rows, keyColumn, amountColumn)
         + TotalWhere(rows, keyColumn, keys[|keys| - 1], amountColumn)
  }

  /** A new record raises the summed totals by its amount when its key is
      among the keys, and leaves them alone otherwise. */
  lemma {:induction false} SumOverSnoc(keys: seq<string>, rows: seq<Row>, row: Row, keyColumn: string, amountColumn: string)
    requires Distinct(keys)
    ensures SumOver(keys, rows + [row], keyColumn, amountColumn)
         == SumOver(keys, rows, keyColumn, amountColumn)
            + (if Cell(row, keyColumn) in keys then Coerce(Cell(row, amountColumn)) else 0.0)
    decreases |keys|
  {
    if |keys| > 0 {
      var front := keys[..|keys| - 1];
      var last := keys[|keys| - 1];
      DistinctInit(keys);
      DistinctLast(keys, Cell(row, keyColumn));
      SumOverSnoc(front, rows, row, keyColumn, amountColumn);
      TotalWhereSnoc(rows, row, keyColumn, last, amountColumn);
    }
  }

  /** A key that appears in no record has a total of zero, so adding it to
      the keys changes nothing. */
  lemma AbsentKeyAddsNothing(keys: seq<string>, rows: seq<Row>, key: string, keyColumn: string, amountColumn: string)
    requires key !in ColumnCells(rows, keyColumn)
    ensures SumOver(keys + [key], rows, keyColumn, amountColumn) == SumOver(keys, rows, keyColumn, amountColumn)
  {
    assert (keys + [key])[..|keys|] == keys;
    assert forall i :: 0 <= i < |rows| ==> Cell(rows[i], keyColumn) != key by {
      forall i | 0 <= i < |rows| ensures Cell(rows[i], keyColumn) != key {
        assert ColumnCells(rows, keyColumn)[i] == Cell(rows[i], keyColumn);
      }
    }
  }

  /** Grouping loses and duplicates nothing: the per-key totals over the
      distinct keys of a column add up to the total of the whole log. */
  lemma {:induction false} GroupsCoverTotal(rows: seq<Row>, keyColumn: string, amountColumn: string)
    ensures SumOver(Dedupe(ColumnCells(rows, keyColumn)), rows, keyColumn, amountColumn) == TotalAll(rows, amountColumn)
    decreases |rows|
  {
    if |rows| > 0 {
      var front := rows[..|rows| - 1];
      var row := rows[|rows| - 1];
      var k := Cell(row, keyColumn);
      var cells := ColumnCells(front, keyColumn);
      var d := Dedupe(cells);
      assert rows == front + [row];
      GroupsCoverTotal(front, keyColumn, amountColumn);
      ColumnCellsSnoc(front, row, keyColumn);
      DedupeSnoc(cells, k);
      TotalAllSnoc(front, row, amountColumn);
      assert ColumnCells(rows, keyColumn) == cells + [k];
      if k in d {
        SumOverSnoc(d, front, row, keyColumn, amountColumn);
        assert Dedupe(cells + [k]) == d;
      } else {
        NewKeyGroup(d, front, row, keyColumn, amountColumn);
        assert Dedupe(cells + [k]) == d + [k];
      }
    }
  }

  /** A record with a key not among the groups opens a group of its own,
      which holds exactly that record's amount. */
  lemma NewKeyGroup(d: seq<string>, rows: seq<Row>, row: Row, keyColumn: string, amountColumn: string)
    requires Distinct(d) && Cell(row, keyColumn) !in d
    requires Cell(row, keyColumn) !in ColumnCells(rows, keyColumn)
    ensures SumOver(d + [Cell(row, keyColumn)], rows + [row], keyColumn, amountColumn)
         == SumOver(d, rows, keyColumn, amountColumn) + Coerce(Cell(row, amountColumn))
  {
    var k := Cell(row, keyColumn);
    AbsentKeyAddsNothing(d, rows, k, keyColumn, amountColumn);
    assert k in d + [k];
    assert Distinct(d + [k]);
    SumOverSnoc(d + [k], rows, row, keyColumn, amountColumn);
  }

  /** The key column of a log with one more record has one more cell. */
  lemma ColumnCellsSnoc(rows: seq<Row>, row: Row, column: string)
    ensures ColumnCells(rows + [row], column) == ColumnCells(rows, column) + [Cell(row, column)]
  {
  }

  /** One group of a `groupby(...).sum()`. */
  datatype Group = Group(key: string, total: real)

  /** `log.groupby(keyColumn)[amountColumn].sum()`: one group per distinct
      key, holding the total for that key. */
  function GroupTotals(rows: seq<Row>, keyColumn: string, amountColumn: string): (groups: seq<Group>)
    ensures |groups| == |Dedupe(ColumnCells(rows, keyColumn))|
    ensures forall i :: 0 <= i < |groups| ==>
              groups[i].total == TotalWhere(rows, keyColumn, groups[i].key, amountColumn)
    ensures forall i, j :: 0 <= i < j < |groups| ==> groups[i].key != groups[j].key
    ensures forall i :: 0 <= i < |groups| ==> groups[i].key in ColumnCells(rows, keyColumn)
    ensures forall i :: 0 <= i < |rows| ==> exists j :: 0 <= j < |groups| && groups[j].key == Cell(rows[i], keyColumn)
  {
    var cells := ColumnCells(rows, keyColumn);
    var keys := Dedupe(cells);
    var groups := seq(|keys|, i requires 0 <= i < |keys| => Group(keys[i], TotalWhere(rows, keyColumn, keys[i], amountColumn)));
    assert forall i :: 0 <= i < |groups| ==> groups[i].key == keys[i];
    forall i | 0 <= i < |rows| ensures exists j :: 0 <= j < |groups| && groups[j].key == Cell(rows[i], keyColumn) {
      assert cells[i] in cells;
      var j :| 0 <= j < |keys| && keys[j] == cells[i];
      assert groups[j].key == keys[j];
    }
    groups
  }

  /** Position of a group with the largest total; the first such on ties. */
  function ArgMax(groups: seq<Group>): (m: nat)
    requires |groups| > 0
    ensures m < |groups|
    ensures forall i :: 0 <= i < |groups| ==> groups[i].total <= groups[m].total
    decreases |groups|
  {
    if |groups| == 1 then 0
    else
      var m := ArgMax(groups[..|groups| - 1]);
      assert forall i :: 0 <= i < |groups| - 1 ==> groups[..|groups| - 1][i] == groups[i];
      if groups[|groups| - 1].total > groups[m].total then |groups| - 1 else m
  }

  function RemoveAt(groups: seq<Group>, m: nat): (rest: seq<Group>)
    requires m < |groups|
    ensures |rest| == |groups| - 1
    ensures multiset(rest) + multiset{groups[m]} == multiset(groups)
  {
    assert groups == groups[..m] + [groups[m]] + groups[m + 1..];
    groups[..m] + groups[m + 1..]
  }

  /** The largest group is no smaller than any group left after removing it. */
  lemma MaxOverRest(groups: seq<Group>)
    requires |groups| > 0
    ensures forall g :: g in multiset(RemoveAt(groups, ArgMax(groups))) ==> g.total <= groups[ArgMax(groups)].total
  {
    var m := ArgMax(groups);
    forall g | g in multiset(RemoveAt(groups, m)) ensures g.total <= groups[m].total {
      assert g in multiset(groups);
      var i :| 0 <= i < |groups| && groups[i] == g;
    }
  }

  /** Putting a group no smaller than anything left in front of a descending
      selection from what is left keeps it descending. */
  lemma ConsDescending(head: Group, tail: seq<Group>, rest: seq<Group>)
    requires multiset(tail) <= multiset(rest)
    requires forall g :: g in multiset(rest) ==> g.total <= head.total
    requires forall i, j :: 0 <= i < j < |tail| ==> tail[i].total >= tail[j].total
    ensures forall i, j :: 0 <= i < j < |[head] + tail| ==> ([head] + tail)[i].total >= ([head] + tail)[j].total
  {
    forall j | 0 <= j < |tail| ensures tail[j].total <= head.total {
      assert tail[j] in multiset(tail);
    }
  }

  /** A group left out of the selection is no larger than anything kept. */
  lemma ConsExcluded(groups: seq<Group>, head: Group, tail: seq<Group>, rest: seq<Group>)
    requires multiset(rest) + multiset{head} == multiset(groups)
    requires multiset(tail) <= multiset(rest)
    requires forall g :: g in multiset(rest) ==> g.total <= head.total
    requires forall g, j :: g in multiset(rest) - multiset(tail) && 0 <= j < |tail| ==> g.total <= tail[j].total
    ensures forall g, j :: g in multiset(groups) - multiset([head] + tail) && 0 <= j < |[head] + tail| ==>
              g.total <= ([head] + tail)[j].total
  {
    assert multiset([head] + tail) == multiset{head} + multiset(tail);
    assert multiset(groups) - multiset([head] + tail) == multiset(rest) - multiset(tail);
  }

  /** Totals never increase along the sequence. */
  predicate Descending(top: seq<Group>) {
    forall i, j :: 0 <= i < j < |top| ==> top[i].total >= top[j].total
  }

  /** Every group of `groups` not kept in `top` is no larger than each one kept. */
  predicate Dominates(top: seq<Group>, groups: seq<Group>) {
    forall g, j :: g in multiset(groups) - multiset(top) && 0 <= j < |top| ==> g.total <= top[j].total
  }

  /** The largest group followed by a valid selection from the rest is a
      valid selection from all the groups. */
  lemma ConsSelection(groups: seq<Group>, head: Group, rest: seq<Group>, tail: seq<Group>)
    requires multiset(rest) + multiset{head} == multiset(groups)
    requires forall g :: g in multiset(rest) ==> g.total <= head.total
    requires multiset(tail) <= multiset(rest)
    requires Descending(tail) && Dominates(tail, rest)
    ensures multiset([head] + tail) <= multiset(groups)
    ensures Descending([head] + tail) && Dominates([head] + tail, groups)
  {
    ConsDescending(head, tail, rest);
    ConsExcluded(groups, head, tail, rest);
    assert multiset([head] + tail) == multiset{head} + multiset(tail);
  }

  /** `sort_values(ascending=False).head(k)`: the `k` largest groups, largest
      first; every group left out is no larger than each one kept. */
  function Top(groups: seq<Group>, k: nat): (top: seq<Group>)
    ensures |top| == if k < |groups| then k else |groups|
    ensures multiset(top) <= multiset(groups)
    ensures Descending(top) && Dominates(top, groups)
    decreases k
  {
    if k == 0 || |groups| == 0 then []
    else
      var m := ArgMax(groups);
      var rest := RemoveAt(groups, m);
      var tail := Top(rest, k - 1);
      assert |tail| == if k - 1 < |groups| - 1 then k - 1 else |groups| - 1;
      MaxOverRest(groups);
      ConsSelection(groups, groups[m], rest, tail);
      [groups[m]] + tail
  }

  /** The fuel figures the dashboard shows. */
  datatype Kpis = Kpis(
    totalFuel: real,
    totalEntries: nat,
    activeAssets: nat,
    byCategory: seq<Group>,
    topConsumers: seq<Group>,
    recent: seq<Row>)

  /** `sort_index(ascending=False).head(n)`: the last `n` records, newest first. */
  function Recent(rows: seq<Row>, n: nat): (recent: seq<Row>)
    ensures |recent| == if n < |rows| then n else |rows|
    ensures forall i :: 0 <= i < |recent| ==> recent[i] == rows[|rows| - 1 - i]
  {
    var count := if n < |rows| then n else |rows|;
    seq(count, i requires 0 <= i < count => rows[|rows| - 1 - i])
  }

  /** A newly logged record heads the recent list, and the older records
      follow as they were shown before. */
  lemma RecentSnoc(rows: seq<Row>, row: Row, n: nat)
    ensures Recent(rows + [row], n + 1) == [row] + Recent(rows, n)
  {
    var after := Recent(rows + [row], n + 1);
    var before := [row] + Recent(rows, n);
    assert |after| == |before|;
    forall i | 0 <= i < |after| ensures after[i] == before[i] {
      if i > 0 {
        assert (rows + [row])[|rows| - i] == rows[|rows| - i];
      }
    }
  }

  /** With room for every record, the recent list is the whole log reversed. */
  lemma RecentReverses(rows: seq<Row>, n: nat)
    requires |rows| <= n
    ensures |Recent(rows, n)| == |rows|
    ensures forall i :: 0 <= i < |rows| ==> Recent(rows, n)[|rows| - 1 - i] == rows[i]
  {
  }

  /** The dashboard for a dispensing log: nothing to show for an empty log;
      otherwise the Fuel Out column is coerced, then Fleet No and Category
      are read, each failing when its column is absent. */
  function Dashboard(log: Table): (r: Result<Option<Kpis>, Fault>)
    ensures IsEmpty(log) ==> r == Ok(None)
    ensures !IsEmpty(log) && FuelOutColumn !in log.columns ==> r == Err(AmountColumnMissing(FuelOutColumn))
    ensures (!IsEmpty(log) && FuelOutColumn in log.columns && FleetNo !in log.columns) ==> r == Err(ColumnMissing(FleetNo))
    ensures (!IsEmpty(log) && FuelOutColumn in log.columns && FleetNo in log.columns && CategoryColumn !in log.columns)
              ==> r == Err(ColumnMissing(CategoryColumn))
    ensures r.Ok? <==> IsEmpty(log) || (FuelOutColumn in log.columns && FleetNo in log.columns && CategoryColumn in log.columns)
    ensures r.Ok? && r.value.Some? ==>
              && r.value.value.totalFuel == TotalAll(log.rows, FuelOutColumn)
              && r.value.value.totalEntries == |log.rows|
              && r.value.value.activeAssets == |set i | 0 <= i < |log.rows| :: Cell(log.rows[i], FleetNo)|
              && |r.value.value.topConsumers| == (if 5 < r.value.value.activeAssets then 5 else r.value.value.activeAssets)
              && |r.value.value.recent| == (if 10 < |log.rows| then 10 else |log.rows|)
              && r.value.value.recent == Recent(log.rows, 10)
              && multiset(r.value.value.topConsumers) <= multiset(GroupTotals(log.rows, FleetNo, FuelOutColumn))
              && Descending(r.value.value.topConsumers)
              && Dominates(r.value.value.topConsumers, GroupTotals(log.rows, FleetNo, FuelOutColumn))
              && r.value.value.byCategory == GroupTotals(log.rows, CategoryColumn, FuelOutColumn)
              && (forall i :: 0 <= i < |r.value.value.byCategory| ==>
                    r.value.value.byCategory[i].total
                    == TotalWhere(log.rows, CategoryColumn, r.value.value.byCategory[i].key, FuelOutColumn))
  {
    if IsEmpty(log) then Ok(None)
    else if FuelOutColumn !in log.columns then Err(AmountColumnMissing(FuelOutColumn))
    else if FleetNo !in log.columns then Err(ColumnMissing(FleetNo))
    else if CategoryColumn !in log.columns then Err(ColumnMissing(CategoryColumn))
    else
      var consumers := GroupTotals(log.rows, FleetNo, FuelOutColumn);
      Ok(Some(Kpis(
        TotalAll(log.rows, FuelOutColumn),
        |log.rows|,
        Nunique(log.rows, FleetNo),
        GroupTotals(log.rows, CategoryColumn, FuelOutColumn),
        Top(consumers, 5),
        Recent(log.rows, 10))))
  }

  /** The per-category chart and the per-asset totals each add up to the
      total fuel figure. */
  lemma ChartsAddUp(log: Table)
    ensures SumOver(Dedupe(ColumnCells(log.rows, CategoryColumn)), log.rows, CategoryColumn, FuelOutColumn)
         == TotalAll(log.rows, FuelOutColumn)
    ensures SumOver(Dedupe(ColumnCells(log.rows, FleetNo)), log.rows, FleetNo, FuelOutColumn)
         == TotalAll(log.rows, FuelOutColumn)
  {
    GroupsCoverTotal(log.rows, CategoryColumn, FuelOutColumn);
    GroupsCoverTotal(log.rows, FleetNo, FuelOutColumn);
  }
}

=== FILE: ascii_text.dfy ===
/** The Python string operations the category normaliser relies on:
    `str.strip()`, `str.replace`, `str.lower()` and `str.title()`.
    `strip` uses Python's whitespace set; case mapping covers ASCII letters
    and leaves every other character as it is. */
module AsciiText {

  /** The characters Python's `str.isspace` accepts, which `str.strip()` removes. */
  predicate IsSpace(c: char) {
    || c == ' '
    || ('\t' <= c <= '\r')
    || ('\U{1C}' <= c <= '\U{1F}')
    || c == '\U{85}' || c == '\U{A0}' || c == '\U{1680}'
    || ('\U{2000}' <= c <= '\U{200A}')
    || c == '\U{2028}' || c == '\U{2029}' || c == '\U{202F}' || c == '\U{205F}'
    || c == '\U{3000}'
  }

  predicate AllSpace(s: string) {
    forall i :: 0 <= i < |s| ==> IsSpace(s[i])
  }

  /** No whitespace at either end. */
  predicate Trimmed(s: string) {
    |s| == 0 || (!IsSpace(s[0]) && !IsSpace(s[|s| - 1]))
  }

  /** Removes leading whitespace: the result is the suffix that starts at the
      first non-whitespace character. */
  function TrimStart(s: string): (r: string)
    ensures |r| <= |s| && r == s[|s| - |r|..]
    ensures AllSpace(s[..|s| - |r|])
    ensures |r| == 0 || !IsSpace(r[0])
  {
    if |s| > 0 && IsSpace(s[0]) then
      var r := TrimStart(s[1..]);
      TrimStartStep(s, r);
      r
    else s
  }

  /** Whitespace cut from the front of all but the first character, which
      is whitespace too, is whitespace cut from the front of the whole. */
  lemma TrimStartStep(s: string, r: string)
    requires |s| > 0 && IsSpace(s[0])
    requires |r| <= |s| - 1 && r == s[1..][|s| - 1 - |r|..] && AllSpace(s[1..][..|s| - 1 - |r|])
    ensures r == s[|s| - |r|..] && AllSpace(s[..|s| - |r|])
  {
    assert s[..|s| - |r|] == [s[0]] + s[1..][..|s| - 1 - |r|];
  }

  /** Removes trailing whitespace: the result is the prefix that ends at the
      last non-whitespace character. */
  function TrimEnd(s: string): (r: string)
    ensures |r| <= |s| && r == s[..|r|]
    ensures AllSpace(s[|r|..])
    ensures |r| == 0 || !IsSpace(r[|r| - 1])
  {
    if |s| > 0 && IsSpace(s[|s| - 1]) then
      var r := TrimEnd(s[..|s| - 1]);
      TrimEndStep(s, r);
      r
    else s
  }

  /** Whitespace cut from the end of all but the last character, which is
      whitespace too, is whitespace cut from the end of the whole. */
  lemma TrimEndStep(s: string, r: string)
    requires |s| > 0 && IsSpace(s[|s| - 1])
    requires |r| <= |s| - 1 && r == s[..|s| - 1][..|r|] && AllSpace(s[..|s| - 1][|r|..])
    ensures r == s[..|r|] && AllSpace(s[|r|..])
  {
    assert s[|r|..] == s[..|s| - 1][|r|..] + [s[|s| - 1]];
  }

  /** `r` sits in `s` at offset `i` with only whitespace around it. */
  predicate SpacedSlice(s: string, r: string, i: int) {
    0 <= i <= |s| - |r| && r == s[i..i + |r|] && AllSpace(s[..i]) && AllSpace(s[i + |r|..])
  }

  /** Python's `str.strip()`: the result is a slice of the input that has
      only whitespace before and after it, and none at its own ends. */
  function Strip(s: string): (r: string)
    ensures Trimmed(r)
    ensures exists i :: 0 <= i <= |s| - |r| && r == s[i..i + |r|]
                        && AllSpace(s[..i]) && AllSpace(s[i + |r|..])
  {
    StripCoreTrimmed(s);
    StripCoreSlice(s);
    TrimEnd(TrimStart(s))
  }

  /** Trimming both ends leaves no whitespace at either end of the core. */
  lemma StripCoreTrimmed(s: string)
    ensures Trimmed(TrimEnd(TrimStart(s)))
  {
    var t := TrimStart(s);
    var r := TrimEnd(t);
    if |r| > 0 {
      assert r[0] == t[0];
    }
  }

  /** The core is found in the input right after the leading whitespace,
      with only whitespace after it. */
  lemma StripCoreSlice(s: string)
    ensures SpacedSlice(s, TrimEnd(TrimStart(s)), |s| - |TrimStart(s)|)
  {
    StripSlice(s, TrimStart(s), TrimEnd(TrimStart(s)));
  }

  /** Where the stripped text sits inside the original: a prefix of a
      suffix, with whitespace cut from both sides. */
  lemma StripSlice(s: string, t: string, r: string)
    requires |t| <= |s| && t == s[|s| - |t|..] && AllSpace(s[..|s| - |t|])
    requires |r| <= |t| && r == t[..|r|] && AllSpace(t[|r|..])
    ensures SpacedSlice(s, r, |s| - |t|)
  {
    var i := |s| - |t|;
    var j := i + |r|;
    forall k | 0 <= k < |r| ensures r[k] == s[i..j][k] {
      assert r[k] == t[k] == s[i + k];
    }
    forall k | 0 <= k < |s| - j ensures IsSpace(s[j..][k]) {
      assert s[j..][k] == t[|r|..][k];
    }
  }

  /** Stripping a string with no whitespace at its ends changes nothing. */
  lemma {:induction false} StripTrimmed(s: string)
    requires Trimmed(s)
    ensures Strip(s) == s
  {
    assert TrimStart(s) == s;
    assert TrimEnd(s) == s;
  }

  /** `strip()` is idempotent. */
  lemma StripIdempotent(s: string)
    ensures Strip(Strip(s)) == Strip(s)
  {
    StripTrimmed(Strip(s));
  }

  /** Leading-whitespace removal empties a whitespace-only string. */
  lemma {:induction false} TrimStartAllSpace(s: string)
    requires AllSpace(s)
    ensures TrimStart(s) == ""
    decreases |s|
  {
    if |s| > 0 {
      TrimStartAllSpace(s[1..]);
    }
  }

  /** `strip()` yields the empty string exactly for whitespace-only input. */
  lemma StripEmptyIffAllSpace(s: string)
    ensures Strip(s) == "" <==> AllSpace(s)
  {
    if AllSpace(s) {
      TrimStartAllSpace(s);
    }
    if Strip(s) == "" {
      var i :| 0 <= i <= |s| && AllSpace(s[..i]) && AllSpace(s[i..]);
      forall k | 0 <= k < |s| ensures IsSpace(s[k]) {
        if k < i {
          assert s[..i][k] == s[k];
        } else {
          assert s[i..][k - i] == s[k];
        }
      }
    }
  }

  predicate IsUpper(c: char) { 'A' <= c <= 'Z' }
  predicate IsLower(c: char) { 'a' <= c <= 'z' }
  /** A cased character in the sense of `str.title()`, restricted to ASCII. */
  predicate IsLetter(c: char) { IsUpper(c) || IsLower(c) }

  function LowerChar(c: char): char {
    if IsUpper(c) then (c as int + 32) as char else c
  }

  function UpperChar(c: char): char {
    if IsLower(c) then (c as int - 32) as char else c
  }

  /** `str.lower()` over ASCII letters: every upper-case letter becomes its
      lower-case partner and nothing else changes. */
  function Lower(s: string): (r: string)
    ensures |r| == |s|
    ensures forall i :: 0 <= i < |s| ==> !IsUpper(r[i])
    ensures forall i :: 0 <= i < |s| && !IsUpper(s[i]) ==> r[i] == s[i]
    ensures forall i :: 0 <= i < |s| && IsUpper(s[i]) ==> IsLower(r[i]) && UpperChar(r[i]) == s[i]
  {
    seq(|s|, i requires 0 <= i < |s| => LowerChar(s[i]))
  }

  /** The contract of `Lower` fixes its result: any text meeting it is the
      input with each character lowered on its own. */
  lemma LowerContractDetermines(s: string, r: string)
    requires |r| == |s|
    requires forall i :: 0 <= i < |s| ==> !IsUpper(r[i])
    requires forall i :: 0 <= i < |s| && !IsUpper(s[i]) ==> r[i] == s[i]
    requires forall i :: 0 <= i < |s| && IsUpper(s[i]) ==> IsLower(r[i]) && UpperChar(r[i]) == s[i]
    ensures forall i :: 0 <= i < |s| ==> r[i] == LowerChar(s[i])
    ensures r == Lower(s)
  {
  }

  /** `str.title()` scanning from a state in which the previous character was
      (or was not) a letter. */
  function TitleFrom(s: string, previousCased: bool): (r: string)
    ensures |r| == |s|
    ensures forall i :: 0 <= i < |s| ==> LowerChar(r[i]) == LowerChar(s[i])
    ensures forall i :: 0 <= i < |s| && !IsLetter(s[i]) ==> r[i] == s[i]
    ensures forall i :: 0 <= i < |s| && IsLetter(s[i]) ==>
              (IsUpper(r[i]) <==> if i == 0 then !previousCased else !IsLetter(s[i - 1]))
  {
    if |s| == 0 then []
    else
      var c := if previousCased then LowerChar(s[0]) else UpperChar(s[0]);
      [c] + TitleFrom(s[1..], IsLetter(s[0]))
  }

  /** `str.title()`: every letter that starts a run of letters is upper-case,
      every other letter lower-case, and non-letters are untouched. */
  function Title(s: string): (r: string)
    ensures |r| == |s|
    ensures forall i :: 0 <= i < |s| ==> LowerChar(r[i]) == LowerChar(s[i])
    ensures forall i :: 0 <= i < |s| && !IsLetter(s[i]) ==> r[i] == s[i]
    ensures forall i :: 0 <= i < |s| && IsLetter(s[i]) ==>
              (IsUpper(r[i]) <==> (i == 0 || !IsLetter(s[i - 1])))
  {
    TitleFrom(s, false)
  }

  /** `str.replace(from, to)` for a one-character `from`. */
  function ReplaceChar(s: string, from: char, to: char): (r: string)
    ensures |r| == |s|
    ensures from != to ==> from !in r
    ensures forall x :: x != from && x != to ==> (x in r <==> x in s)
    ensures forall i :: 0 <= i < |s| && s[i] != from ==> r[i] == s[i]
    ensures forall i :: 0 <= i < |s| && s[i] == from ==> r[i] == to
    ensures from !in s ==> r == s
  {
    var r := seq(|s|, i requires 0 <= i < |s| => if s[i] == from then to else s[i]);
    assert forall x :: x != from && x != to && x in r ==> x in s by {
      forall x | x != from && x != to && x in r ensures x in s {
        var i :| 0 <= i < |r| && r[i] == x;
        assert s[i] == x;
      }
    }
    assert forall x :: x != from && x in s ==> x in r by {
      forall x | x != from && x in s ensures x in r {
        var i :| 0 <= i < |s| && s[i] == x;
        assert r[i] == x;
      }
    }
    r
  }

  /** Replacing a character a second time changes nothing, and replacing
      distributes over concatenation. */
  lemma ReplaceCharStable(s: string, t: string, from: char, to: char)
    requires from != to
    ensures ReplaceChar(ReplaceChar(s, from, to), from, to) == ReplaceChar(s, from, to)
    ensures ReplaceChar(s + t, from, to) == ReplaceChar(s, from, to) + ReplaceChar(t, from, to)
  {
    var r := ReplaceChar(s + t, from, to);
    var a := ReplaceChar(s, from, to);
    var b := ReplaceChar(t, from, to);
    forall i | 0 <= i < |r| ensures r[i] == (a + b)[i] {
      if i < |s| {
        assert (s + t)[i] == s[i];
      } else {
        assert (s + t)[i] == t[i - |s|];
      }
    }
  }

  /** True when `pat` occurs in `s` at some position. */
  predicate Occurs(s: string, pat: string)
    decreases |s|
  {
    |pat| <= |s| && (s[..|pat|] == pat || (|s| > 0 && Occurs(s[1..], pat)))
  }

  /** `str.replace(pat, rep)`: occurrences are replaced left to right without
      overlapping; where `pat` does not occur the string comes back unchanged. */
  function ReplaceAll(s: string, pat: string, rep: string): (r: string)
    requires |pat| > 0
    ensures !Occurs(s, pat) ==> r == s
    ensures rep == pat ==> r == s
    ensures forall x :: x in r ==> x in s || x in rep
    decreases |s|
  {
    if |s| < |pat| then s
    else if s[..|pat|] == pat then rep + ReplaceAll(s[|pat|..], pat, rep)
    else [s[0]] + ReplaceAll(s[1..], pat, rep)
  }

  /** `str.replace(c, "")`: deletes every `c` and keeps the other characters
      in order. */
  function RemoveChar(s: string, c: char): (r: string)
    ensures c !in r
    ensures forall x :: x != c ==> (x in r <==> x in s)
    ensures c !in s ==> r == s
  {
    if |s| == 0 then []
    else (if s[0] == c then [] else [s[0]]) + RemoveChar(s[1..], c)
  }

  /** Deleting `c` drops every copy of it and keeps every other character as
      many times as it occurs. */
  lemma {:induction false} RemoveCharCounts(s: string, c: char)
    ensures multiset(RemoveChar(s, c)) == multiset(s)[c := 0]
    decreases |s|
  {
    if |s| > 0 {
      assert s == [s[0]] + s[1..];
      RemoveCharCounts(s[1..], c);
    }
  }

  /** A pattern cannot occur in a string that lacks one of its characters. */
  lemma {:induction false} NotOccursWithoutChar(s: string, pat: string, x: char)
    requires x in pat && x !in s
    ensures !Occurs(s, pat)
    decreases |s|
  {
    if |pat| <= |s| {
      var k :| 0 <= k < |pat| && pat[k] == x;
      assert s[k] in s;
      assert s[..|pat|][k] != pat[k];
      if |s| > 0 {
        NotOccursWithoutChar(s[1..], pat, x);
      }
    }
  }

  /** Deleting a character distributes over concatenation. */
  lemma {:induction false} RemoveCharAppend(a: string, b: string, c: char)
    ensures RemoveChar(a + b, c) == RemoveChar(a, c) + RemoveChar(b, c)
    decreases |a|
  {
    if |a| > 0 {
      assert (a + b)[0] == a[0];
      assert (a + b)[1..] == a[1..] + b;
      RemoveCharAppend(a[1..], b, c);
    } else {
      assert a + b == b;
    }
  }

  /** A prefix that cannot start an occurrence of `pat` is copied unchanged. */
  lemma {:induction false} ReplaceAllSkip(a: string, rest: string, pat: string, rep: string)
    requires |pat| > 0 && pat[0] !in a
    ensures ReplaceAll(a + rest, pat, rep) == a + ReplaceAll(rest, pat, rep)
    decreases |a|
  {
    if |a| > 0 {
      var s := a + rest;
      assert s[0] == a[0] && a[0] in a;
      if |s| >= |pat| {
        assert s[..|pat|][0] != pat[0];
      }
      assert s[1..] == a[1..] + rest;
      ReplaceAllSkip(a[1..], rest, pat, rep);
      assert a == [a[0]] + a[1..];
    } else {
      assert a + rest == rest;
    }
  }

  /** An occurrence at the front is replaced and scanning resumes after it. */
  lemma ReplaceAllFront(rest: string, pat: string, rep: string)
    requires |pat| > 0
    ensures ReplaceAll(pat + rest, pat, rep) == rep + ReplaceAll(rest, pat, rep)
  {
    var s := pat + rest;
    assert s[..|pat|] == pat && s[|pat|..] == rest;
  }

  /** The first occurrence of `pat` is the one replaced: text before it that
      cannot start an occurrence is kept, the occurrence becomes `rep`, and
      the scan resumes behind it. */
  lemma ReplaceAllFirst(a: string, rest: string, pat: string, rep: string)
    requires |pat| > 0 && pat[0] !in a
    ensures ReplaceAll(a + pat + rest, pat, rep) == a + rep + ReplaceAll(rest, pat, rep)
  {
    assert a + pat + rest == a + (pat + rest);
    ReplaceAllSkip(a, pat + rest, pat, rep);
    ReplaceAllFront(rest, pat, rep);
  }

  /** Leading whitespace in front of a non-blank start is removed exactly. */
  lemma {:induction false} TrimStartPrefix(p: string, r: string)
    requires AllSpace(p) && (|r| == 0 || !IsSpace(r[0]))
    ensures TrimStart(p + r) == r
    decreases |p|
  {
    if |p| > 0 {
      assert (p + r)[0] == p[0];
      assert (p + r)[1..] == p[1..] + r;
      TrimStartPrefix(p[1..], r);
    } else {
      assert p + r == r;
    }
  }

  /** Trailing whitespace behind a non-blank end is removed exactly. */
  lemma {:induction false} TrimEndSuffix(r: string, q: string)
    requires AllSpace(q) && (|r| == 0 || !IsSpace(r[|r| - 1]))
    ensures TrimEnd(r + q) == r
    decreases |q|
  {
    if |q| > 0 {
      assert (r + q)[|r + q| - 1] == q[|q| - 1];
      assert (r + q)[..|r + q| - 1] == r + q[..|q| - 1];
      TrimEndSuffix(r, q[..|q| - 1]);
    } else {
      assert r + q == r;
    }
  }

  /** Stripping removes exactly the whitespace around a trimmed core. */
  lemma StripAround(p: string, core: string, q: string)
    requires AllSpace(p) && AllSpace(q) && Trimmed(core)
    ensures Strip(p + core + q) == core
  {
    if |core| == 0 {
      assert p + core + q == p + q;
      assert AllSpace(p + q);
      StripEmptyIffAllSpace(p + q);
    } else {
      assert p + core + q == p + (core + q);
      assert (core + q)[0] == core[0];
      TrimStartPrefix(p, core + q);
      TrimEndSuffix(core, q);
    }
  }

  /** A capitalised word is its own title case. */
  lemma TitleOfCapitalised(s: string)
    requires |s| > 0 && IsUpper(s[0])
    requires forall i :: 1 <= i < |s| ==> IsLower(s[i])
    ensures Title(s) == s
  {
    var r := Title(s);
    forall i | 0 <= i < |s| ensures r[i] == s[i] {
      assert IsLetter(s[i]);
      assert LowerChar(r[i]) == LowerChar(s[i]);
      if i > 0 {
        assert IsLetter(s[i - 1]);
        assert !IsUpper(r[i]);
      } else {
        assert IsUpper(r[0]);
        assert (r[0] as int + 32) as char == (s[0] as int + 32) as char;
      }
    }
  }
}

=== FILE: categories.dfy ===
/** The asset-category normaliser: free-text categories from the Assets sheet
    are mapped onto the five canonical categories through a fixed alias
    table, and anything unrecognised is passed through trimmed. */
module Categories {
  import opened Results
  import opened AsciiText

  /** The canonical categories. */
  const Allowed: seq<string> := ["Vehicle", "Bus", "Equipment", "Machine", "Tanker"]

  /** Lookup keys (lower-case, spaces removed, `&` and ` and ` turned into `/`)
      and the canonical category each stands for. */
  const Aliases: map<string, string> := map[
    "vehicle" := "Vehicle",
    "vehicles" := "Vehicle",
    "bus" := "Bus",
    "buses" := "Bus",
    "equipment" := "Equipment",
    "machine" := "Machine",
    "machines" := "Machine",
    "machine/equipment" := "Equipment",
    "equipment/machine" := "Equipment",
    "tanker" := "Tanker",
    "tankers" := "Tanker"
  ]

  /** `CATEGORY_ALIASES.get(key)`. */
  function AliasGet(key: string): (r: Option<string>)
    ensures r.Some? ==> r.value in Allowed
  {
    if key in Aliases then Some(Aliases[key]) else None
  }

  /** The alias table spelled out key by key. */
  lemma AliasGetCases(key: string)
    ensures AliasGet(key) ==
      if key == "vehicle" || key == "vehicles" then Some("Vehicle")
      else if key == "bus" || key == "buses" then Some("Bus")
      else if key == "equipment" || key == "machine/equipment" || key == "equipment/machine" then Some("Equipment")
      else if key == "machine" || key == "machines" then Some("Machine")
      else if key == "tanker" || key == "tankers" then Some("Tanker")
      else None
  {
  }

  /** The alias-table key of an already stripped category: `&` and the
      case-sensitive ` and ` become `/`, then the text is lower-cased and
      every space deleted. */
  function CategoryKey(raw: string): (key: string)
    ensures ' ' !in key
  {
    RemoveChar(Lower(ReplaceAll(ReplaceChar(raw, '&', '/'), " and ", "/")), ' ')
  }

  /** What the key looks like: no space, no `&` and no upper-case letter; a
      text without spaces and `&` only has its case lowered. */
  lemma CategoryKeyShape(raw: string)
    ensures var key := CategoryKey(raw);
            && ' ' !in key && '&' !in key
            && (forall i :: 0 <= i < |key| ==> !IsUpper(key[i]))
            && (' ' !in raw && '&' !in raw ==> key == Lower(raw))
  {
    var slashed := ReplaceChar(raw, '&', '/');
    var joined := ReplaceAll(slashed, " and ", "/");
    var lowered := Lower(joined);
    var key := RemoveChar(lowered, ' ');
    assert '&' !in joined;
    forall x | x in lowered ensures !IsUpper(x) && x != '&' {
      var i :| 0 <= i < |lowered| && lowered[i] == x;
      if IsUpper(joined[i]) {
        assert IsLower(x);
      } else {
        assert x == joined[i];
      }
    }
    forall i | 0 <= i < |key| ensures !IsUpper(key[i]) {
      assert key[i] in lowered;
    }
    if ' ' !in raw && '&' !in raw {
      NotOccursWithoutChar(raw, " and ", ' ');
      forall i | 0 <= i < |raw| ensures lowered[i] != ' ' {
        assert raw[i] != ' ';
      }
    }
  }

  /** `normalize_category`: `None` stands for a cell pandas reports as
      missing. The result is either one of the canonical categories or the
      input with surrounding whitespace removed; whitespace-only input gives
      the empty string. */
  function NormalizeCategory(category: Option<string>): (r: string)
    ensures category.None? ==> r == ""
    ensures r in Allowed || (category.Some? && r == Strip(category.value)) || r == ""
    ensures Trimmed(r)
    ensures category.Some? && AllSpace(category.value) ==> r == ""
  {
    match category
    case None => ""
    case Some(c) =>
      var raw := Strip(c);
      var key := CategoryKey(raw);
      if AliasGet(key).Some? then
        CanonicalTrimmed(AliasGet(key).value);
        AliasGet(key).value
      else if Title(raw) in Allowed then
        CanonicalTrimmed(Title(raw));
        Title(raw)
      else
        StripEmptyIffAllSpace(c);
        raw
  }

  /** Canonical categories carry no surrounding whitespace. */
  lemma CanonicalTrimmed(a: string)
    requires a in Allowed
    ensures Trimmed(a)
  {
  }

  /** The key of every canonical category leads back to that category. */
  lemma CanonicalKey(a: string)
    requires a in Allowed
    ensures AliasGet(CategoryKey(a)) == Some(a)
  {
    AliasGetCases(CategoryKey(a));
    if a == "Vehicle" {
      VehicleKey();
    } else if a == "Bus" {
      BusKey();
    } else if a == "Equipment" {
      EquipmentKey();
    } else if a == "Machine" {
      MachineKey();
    } else {
      TankerKey();
    }
  }

  lemma VehicleKey()
    ensures CategoryKey("Vehicle") == "vehicle"
  {
    LowerKeyIs("Vehicle", "vehicle");
  }

  lemma BusKey()
    ensures CategoryKey("Bus") == "bus"
  {
    LowerKeyIs("Bus", "bus");
  }

  lemma EquipmentKey()
    ensures CategoryKey("Equipment") == "equipment"
  {
    LowerKeyIs("Equipment", "equipment");
  }

  lemma MachineKey()
    ensures CategoryKey("Machine") == "machine"
  {
    LowerKeyIs("Machine", "machine");
  }

  lemma TankerKey()
    ensures CategoryKey("Tanker") == "tanker"
  {
    LowerKeyIs("Tanker", "tanker");
  }

  /** A word made of letters only has its lower-case form as its key. */
  lemma LowerKeyIs(raw: string, lower: string)
    requires forall i :: 0 <= i < |raw| ==> IsLetter(raw[i])
    requires |lower| == |raw|
    requires forall i :: 0 <= i < |raw| ==> lower[i] == LowerChar(raw[i])
    ensures Lower(raw) == lower && CategoryKey(raw) == lower
  {
    assert ' ' !in raw && '&' !in raw by {
      forall i | 0 <= i < |raw| ensures raw[i] != ' ' && raw[i] != '&' {
        assert IsLetter(raw[i]);
      }
    }
    CategoryKeyShape(raw);
  }

  /** Canonical categories consist of letters only. */
  lemma CanonicalLetters(a: string)
    requires a in Allowed
    ensures forall i :: 0 <= i < |a| ==> IsLetter(a[i])
  {
  }

  /** Canonical categories are fixed points of the normaliser. */
  lemma CanonicalFixedPoint(a: string)
    requires a in Allowed
    ensures NormalizeCategory(Some(a)) == a
  {
    CanonicalTrimmed(a);
    StripTrimmed(a);
    CanonicalKey(a);
  }

  /** `normalize_category(normalize_category(x)) == normalize_category(x)`. */
  lemma NormalizeIdempotent(category: Option<string>)
    ensures NormalizeCategory(Some(NormalizeCategory(category))) == NormalizeCategory(category)
  {
    match category
    case None =>
      NormalizeBlank();
    case Some(c) =>
      var r := NormalizeCategory(category);
      if r in Allowed {
        CanonicalFixedPoint(r);
      } else {
        PassThrough(c);
        PassThroughFixed(c);
      }
  }

  /** Text the normaliser passes through unchanged passes through again. */
  lemma PassThroughFixed(c: string)
    requires AliasGet(CategoryKey(Strip(c))).None? && Title(Strip(c)) !in Allowed
    ensures NormalizeCategory(Some(Strip(c))) == Strip(c)
  {
    StripIdempotent(c);
  }

  /** A successful alias lookup always lands on a canonical category. */
  lemma AliasHitIsCanonical(c: string)
    requires AliasGet(CategoryKey(Strip(c))).Some?
    ensures NormalizeCategory(Some(c)) == AliasGet(CategoryKey(Strip(c))).value
    ensures NormalizeCategory(Some(c)) in Allowed
  {
  }

  /** When neither the alias lookup nor the title-case test matches, the
      result is exactly the stripped input. */
  lemma PassThrough(c: string)
    requires AliasGet(CategoryKey(Strip(c))).None? && Title(Strip(c)) !in Allowed
    ensures NormalizeCategory(Some(c)) == Strip(c)
  {
  }

  /** Over ASCII the title-case fallback never decides anything: whenever the
      title-cased input is canonical, the alias lookup has already matched
      and produced the same category. */
  lemma TitleFallbackSubsumed(raw: string)
    requires Title(raw) in Allowed
    ensures AliasGet(CategoryKey(raw)) == Some(Title(raw))
  {
    var t := Title(raw);
    CanonicalKey(t);
    CanonicalLetters(t);
    LowerKeyIs(t, Lower(t));
    forall i | 0 <= i < |raw|
      ensures IsLetter(raw[i]) && Lower(t)[i] == LowerChar(raw[i])
    {
      assert IsLetter(t[i]);
    }
    LowerKeyIs(raw, Lower(t));
  }

  /** Missing, empty and whitespace-only categories normalise to "". */
  lemma NormalizeBlank()
    ensures NormalizeCategory(None) == ""
    ensures NormalizeCategory(Some("")) == ""
    ensures NormalizeCategory(Some("   ")) == ""
  {
    NormalizeAllSpace("");
    NormalizeAllSpace("   ");
  }

  lemma NormalizeAllSpace(c: string)
    requires AllSpace(c)
    ensures NormalizeCategory(Some(c)) == ""
  {
  }

  /** The normaliser decided by the stripped text and its key. */
  lemma NormalizeVia(c: string, raw: string, key: string)
    requires Strip(c) == raw && CategoryKey(raw) == key
    ensures AliasGet(key).Some? ==> NormalizeCategory(Some(c)) == AliasGet(key).value
    ensures AliasGet(key).None? && Title(raw) !in Allowed ==> NormalizeCategory(Some(c)) == raw
  {
  }

  /** A trimmed text whose key is an alias normalises to that alias's category. */
  lemma NormalizeWord(c: string, key: string, canonical: string)
    requires Trimmed(c) && CategoryKey(c) == key && AliasGet(key) == Some(canonical)
    ensures NormalizeCategory(Some(c)) == canonical
  {
    StripTrimmed(c);
    NormalizeVia(c, c, key);
  }

  /** `"vehicles"` is an alias of Vehicle. */
  lemma NormalizeVehicles()
    ensures NormalizeCategory(Some("vehicles")) == "Vehicle"
  {
    VehiclesKey();
    VehiclesAlias();
    NormalizeWord("vehicles", "vehicles", "Vehicle");
  }

  lemma VehiclesKey()
    ensures CategoryKey("vehicles") == "vehicles"
  {
    KeyOfWord("vehicles", "vehicles");
  }

  lemma VehiclesAlias()
    ensures AliasGet("vehicles") == Some("Vehicle")
  {
    AliasGetCases("vehicles");
  }

  /** `"tankers"` is an alias of Tanker. */
  lemma NormalizeTankers()
    ensures NormalizeCategory(Some("tankers")) == "Tanker"
  {
    TankersKey();
    TankersAlias();
    NormalizeWord("tankers", "tankers", "Tanker");
  }

  lemma TankersKey()
    ensures CategoryKey("tankers") == "tankers"
  {
    KeyOfWord("tankers", "tankers");
  }

  lemma TankersAlias()
    ensures AliasGet("tankers") == Some("Tanker")
  {
    AliasGetCases("tankers");
  }

  /** Surrounding blanks and upper case do not matter: `" BUS "` is Bus. */
  lemma NormalizeUpperCaseBus()
    ensures NormalizeCategory(Some(" BUS ")) == "Bus"
  {
    StripBus();
    BusWordKey();
    BusAlias();
    NormalizeVia(" BUS ", "BUS", "bus");
  }

  lemma BusWordKey()
    ensures CategoryKey("BUS") == "bus"
  {
    KeyOfWord("BUS", "bus");
  }

  lemma BusAlias()
    ensures AliasGet("bus") == Some("Bus")
  {
    AliasGetCases("bus");
  }

  lemma StripBus()
    ensures Strip(" BUS ") == "BUS"
  {
    assert " BUS " == " " + "BUS" + " ";
    StripAround(" ", "BUS", " ");
  }

  /** The key of a single word, proved apart from any other literal. */
  lemma KeyOfWord(word: string, lower: string)
    requires forall i :: 0 <= i < |word| ==> IsLetter(word[i])
    requires |lower| == |word|
    requires forall i :: 0 <= i < |word| ==> lower[i] == LowerChar(word[i])
    ensures CategoryKey(word) == lower
  {
    LowerKeyIs(word, lower);
  }

  /** `&` joins two categories into the combined alias: Equipment. */
  lemma NormalizeAmpersand()
    ensures NormalizeCategory(Some("Machine & Equipment")) == "Equipment"
  {
    AmpersandKey();
    CombinedAlias();
    NormalizeWord("Machine & Equipment", "machine/equipment", "Equipment");
  }

  lemma CombinedAlias()
    ensures AliasGet("machine/equipment") == Some("Equipment")
  {
    AliasGetCases("machine/equipment");
  }

  lemma AmpersandKey()
    ensures CategoryKey("Machine & Equipment") == "machine/equipment"
  {
    AmpersandSlashed();
    NotOccursWithoutChar("Machine / Equipment", " and ", 'd');
    AmpersandLower();
    AmpersandSpaces();
  }

  lemma AmpersandSlashed()
    ensures ReplaceChar("Machine & Equipment", '&', '/') == "Machine / Equipment"
  {
  }

  lemma AmpersandLower()
    ensures Lower("Machine / Equipment") == "machine" + " " + "/" + " " + "equipment"
  {
  }

  lemma AmpersandSpaces()
    ensures RemoveChar("machine" + " " + "/" + " " + "equipment", ' ') == "machine/equipment"
  {
    SpacedSlashJoin("machine", "equipment");
  }

  /** Deleting the spaces of `a / b` gives `a/b`. */
  lemma SpacedSlashJoin(a: string, b: string)
    requires ' ' !in a && ' ' !in b
    ensures RemoveChar(a + " " + "/" + " " + b, ' ') == a + "/" + b
  {
    var blank := RemoveChar(" ", ' ');
    var slash := RemoveChar("/", ' ');
    assert blank == [] && slash == "/";
    RemoveCharAppend(a, " ", ' ');
    var p1 := a + " ";
    assert RemoveChar(p1, ' ') == a;
    RemoveCharAppend(p1, "/", ' ');
    var p2 := p1 + "/";
    assert RemoveChar(p2, ' ') == a + "/";
    RemoveCharAppend(p2, " ", ' ');
    var p3 := p2 + " ";
    assert RemoveChar(p3, ' ') == a + "/";
    RemoveCharAppend(p3, b, ' ');
  }

  /** The lower-case word ` and ` joins categories the same way. */
  lemma NormalizeAndWord()
    ensures NormalizeCategory(Some("Machine and Equipment")) == "Equipment"
  {
    AndWordKey();
    CombinedAlias();
    NormalizeWord("Machine and Equipment", "machine/equipment", "Equipment");
  }

  lemma AndWordKey()
    ensures CategoryKey("Machine and Equipment") == "machine/equipment"
  {
    AndWordSlashed();
    SlashKey();
  }

  lemma AndWordSlashed()
    ensures ReplaceAll(ReplaceChar("Machine and Equipment", '&', '/'), " and ", "/") == "Machine/Equipment"
  {
    AndWordHasNoAmpersand();
    WordsHaveNoSpace();
    AndJoin("Machine", "Equipment");
    SlashJoined();
  }

  lemma WordsHaveNoSpace()
    ensures ' ' !in "Machine" && ' ' !in "Equipment"
  {
  }

  lemma SlashJoined()
    ensures "Machine" + "/" + "Equipment" == "Machine/Equipment"
  {
  }

  lemma AndWordHasNoAmpersand()
    ensures ReplaceChar("Machine and Equipment", '&', '/') == "Machine" + " and " + "Equipment"
  {
  }

  /** Replacing ` and ` in `a and b` gives `a/b`. */
  lemma AndJoin(a: string, b: string)
    requires ' ' !in a && ' ' !in b
    ensures ReplaceAll(a + " and " + b, " and ", "/") == a + "/" + b
  {
    assert a + " and " + b == a + (" and " + b);
    ReplaceAllSkip(a, " and " + b, " and ", "/");
    ReplaceAllFront(b, " and ", "/");
    NotOccursWithoutChar(b, " and ", ' ');
  }

  /** The slash spelling of the combined alias is Equipment as well. */
  lemma NormalizeSlash()
    ensures NormalizeCategory(Some("Machine/Equipment")) == "Equipment"
  {
    SlashedKey();
    CombinedAlias();
    NormalizeWord("Machine/Equipment", "machine/equipment", "Equipment");
  }

  lemma SlashedKey()
    ensures CategoryKey("Machine/Equipment") == "machine/equipment"
  {
    SlashHasNoAmpersand();
    assert ' ' in " and ";
    NotOccursWithoutChar("Machine/Equipment", " and ", ' ');
    SlashKey();
  }

  lemma SlashHasNoAmpersand()
    ensures ReplaceChar("Machine/Equipment", '&', '/') == "Machine/Equipment"
  {
  }

  lemma SlashKey()
    ensures RemoveChar(Lower("Machine/Equipment"), ' ') == "machine/equipment"
  {
    SlashLower();
    assert ' ' !in "machine/equipment";
  }

  lemma SlashLower()
    ensures Lower("Machine/Equipment") == "machine/equipment"
  {
  }

  /** Text that names no category passes through, trimmed. */
  lemma NormalizeUnknown()
    ensures NormalizeCategory(Some("  Truck ")) == "Truck"
  {
    StripTruck();
    TruckKey();
    TruckAlias();
    TruckTitle();
    NormalizeVia("  Truck ", "Truck", "truck");
  }

  lemma StripTruck()
    ensures Strip("  Truck ") == "Truck"
  {
    assert "  Truck " == "  " + "Truck" + " ";
    StripAround("  ", "Truck", " ");
  }

  lemma TruckAlias()
    ensures AliasGet("truck") == None
  {
    AliasGetCases("truck");
  }

  lemma TruckKey()
    ensures CategoryKey("Truck") == "truck"
  {
    KeyOfWord("Truck", "truck");
  }

  lemma TruckTitle()
    ensures Title("Truck") == "Truck"
  {
    TitleOfCapitalised("Truck");
  }
}

=== FILE: directory.dfy ===
/** The asset directory read from the "Assets" worksheet: category
    normalisation on load, the search labels and options of the asset
    picker, and the choice of tanker roster. */
module Directory {
  import opened Results
  import opened Sequences
  import opened Sheets
  import opened Categories

  const FleetNo := "Fleet No"
  const CategoryColumn := "Category"
  const DescriptionColumn := "Description"
  const PlateNumber := "Plate Number"
  const SearchLabelColumn := "Search_Label"

  /** The roster used when the directory lists no tanker. */
  const DefaultTankers: seq<string> := ["BPS-95", "HSC-116", "BPS-13", "HSC-101"]

  /** One record with its Category cell normalised. */
  function NormalizeRow(row: Row): Row {
    if CategoryColumn in row
    then row[CategoryColumn := NormalizeCategory(Some(row[CategoryColumn]))]
    else row
  }

  /** Normalising a record's category a second time changes nothing. */
  lemma NormalizeRowIdempotent(row: Row)
    ensures NormalizeRow(NormalizeRow(row)) == NormalizeRow(row)
  {
    if CategoryColumn in row {
      var once := NormalizeRow(row);
      var n := once[CategoryColumn];
      assert n == NormalizeCategory(Some(row[CategoryColumn]));
      assert NormalizeCategory(Some(n)) == n by {
        NormalizeIdempotent(Some(row[CategoryColumn]));
      }
      UpdateSameValue(once, CategoryColumn);
    }
  }

  /** Writing a cell's own value back leaves the record as it was. */
  lemma UpdateSameValue(row: Row, column: string)
    requires column in row
    ensures row[column := row[column]] == row
  {
  }

  /** Loading the directory: when the table has a Category column every
      record's category is normalised and nothing else changes; otherwise the
      table is kept as read. */
  function LoadDirectory(t: Table): (r: Table)
    ensures r.columns == t.columns && |r.rows| == |t.rows|
    ensures CategoryColumn !in t.columns ==> r == t
    ensures forall i :: 0 <= i < |t.rows| ==> r.rows[i].Keys == t.rows[i].Keys
    ensures forall i, k :: 0 <= i < |t.rows| && k in t.rows[i] && k != CategoryColumn ==>
              r.rows[i][k] == t.rows[i][k]
    ensures CategoryColumn in t.columns ==>
              forall i :: 0 <= i < |t.rows| && CategoryColumn in t.rows[i] ==>
                r.rows[i][CategoryColumn] == NormalizeCategory(Some(t.rows[i][CategoryColumn]))
  {
    if CategoryColumn in t.columns
    then Table(t.columns, seq(|t.rows|, i requires 0 <= i < |t.rows| => NormalizeRow(t.rows[i])))
    else t
  }

  /** Loading twice is loading once: the stored categories are already
      canonical or already trimmed. */
  lemma LoadDirectoryIdempotent(t: Table)
    ensures LoadDirectory(LoadDirectory(t)) == LoadDirectory(t)
  {
    if CategoryColumn in t.columns {
      var once := LoadDirectory(t);
      var twice := LoadDirectory(once);
      forall i | 0 <= i < |t.rows| ensures twice.rows[i] == once.rows[i] {
        NormalizeRowIdempotent(t.rows[i]);
      }
    }
  }

  /** The picker label of one asset: `"<Fleet No> | <Description> (<Plate Number>)"`. */
  function SearchLabel(row: Row): (text: string)
    ensures |text| == |Cell(row, FleetNo)| + |Cell(row, DescriptionColumn)| + |Cell(row, PlateNumber)| + 6
    ensures text[..|Cell(row, FleetNo)| + 3] == Cell(row, FleetNo) + " | "
    ensures text[|Cell(row, FleetNo)| + 3..|Cell(row, FleetNo)| + 3 + |Cell(row, DescriptionColumn)|]
         == Cell(row, DescriptionColumn)
    ensures text[|Cell(row, FleetNo)| + 3 + |Cell(row, DescriptionColumn)|..|text| - |Cell(row, PlateNumber)| - 1] == " ("
    ensures text[|text| - |Cell(row, PlateNumber)| - 1..] == Cell(row, PlateNumber) + ")"
  {
    Cell(row, FleetNo) + " | " + Cell(row, DescriptionColumn) + " (" + Cell(row, PlateNumber) + ")"
  }

  /** `build_search_labels`: an empty table comes back unchanged; otherwise
      the three source columns must exist, and every record gains a
      Search_Label cell while keeping all its other cells. */
  function BuildSearchLabels(t: Table): (r: Result<Table, Fault>)
    ensures IsEmpty(t) ==> r == Ok(t)
    ensures r.Err? <==> !IsEmpty(t) && !(FleetNo in t.columns && DescriptionColumn in t.columns && PlateNumber in t.columns)
    ensures !IsEmpty(t) && FleetNo !in t.columns ==> r == Err(ColumnMissing(FleetNo))
    ensures (!IsEmpty(t) && FleetNo in t.columns && DescriptionColumn !in t.columns) ==>
              r == Err(ColumnMissing(DescriptionColumn))
    ensures (!IsEmpty(t) && FleetNo in t.columns && DescriptionColumn in t.columns && PlateNumber !in t.columns) ==>
              r == Err(ColumnMissing(PlateNumber))
    ensures r.Ok? && !IsEmpty(t) ==>
              && |r.value.rows| == |t.rows|
              && (forall c :: c in r.value.columns <==> c in t.columns || c == SearchLabelColumn)
              && (forall i :: 0 <= i < |t.rows| ==>
                    && r.value.rows[i].Keys == t.rows[i].Keys + {SearchLabelColumn}
                    && r.value.rows[i][SearchLabelColumn] == SearchLabel(t.rows[i])
                    && forall k :: k in t.rows[i] && k != SearchLabelColumn ==> r.value.rows[i][k] == t.rows[i][k])
  {
    if IsEmpty(t) then Ok(t)
    else if FleetNo !in t.columns then Err(ColumnMissing(FleetNo))
    else if DescriptionColumn !in t.columns then Err(ColumnMissing(DescriptionColumn))
    else if PlateNumber !in t.columns then Err(ColumnMissing(PlateNumber))
    else
      var columns := if SearchLabelColumn in t.columns then t.columns else t.columns + [SearchLabelColumn];
      Ok(Table(columns, seq(|t.rows|, i requires 0 <= i < |t.rows| =>
                                t.rows[i][SearchLabelColumn := SearchLabel(t.rows[i])])))
  }

  /** Labelling is idempotent: the label column of a labelled table is
      recomputed from the same three cells, so labelling again changes
      nothing. */
  lemma BuildSearchLabelsIdempotent(t: Table)
    requires BuildSearchLabels(t).Ok?
    ensures BuildSearchLabels(BuildSearchLabels(t).value) == BuildSearchLabels(t)
  {
    var u := BuildSearchLabels(t).value;
    if !IsEmpty(t) {
      assert !IsEmpty(u) by {
        assert t.rows[0] in t.rows;
      }
      assert FleetNo in u.columns && DescriptionColumn in u.columns && PlateNumber in u.columns;
      var again := seq(|u.rows|, i requires 0 <= i < |u.rows| => u.rows[i][SearchLabelColumn := SearchLabel(u.rows[i])]);
      forall i | 0 <= i < |u.rows| ensures again[i] == u.rows[i] {
        LabelKeepsSources(t.rows[i]);
        UpdateSameValue(u.rows[i], SearchLabelColumn);
      }
      assert again == u.rows;
      assert BuildSearchLabels(u) == Ok(Table(u.columns, again));
    }
  }

  /** Adding the label leaves the three cells it is made of, and so the
      label itself, as they were. */
  lemma LabelKeepsSources(row: Row)
    ensures SearchLabel(row[SearchLabelColumn := SearchLabel(row)]) == SearchLabel(row)
  {
    var labelled := row[SearchLabelColumn := SearchLabel(row)];
    assert Cell(labelled, FleetNo) == Cell(row, FleetNo);
    assert Cell(labelled, DescriptionColumn) == Cell(row, DescriptionColumn);
    assert Cell(labelled, PlateNumber) == Cell(row, PlateNumber);
  }

  /** No picker label is empty, so the blank first option never names an asset. */
  lemma LabelNeverBlank(row: Row)
    ensures SearchLabel(row) != ""
  {
  }

  /** The labels of a labelled table, in table order. */
  function Labels(rows: seq<Row>): (labels: seq<string>)
    ensures |labels| == |rows|
    ensures forall i :: 0 <= i < |rows| ==> labels[i] == Cell(rows[i], SearchLabelColumn)
  {
    seq(|rows|, i requires 0 <= i < |rows| => Cell(rows[i], SearchLabelColumn))
  }

  /** The asset picker's options: a blank entry, then every label once, in
      order of first appearance (`[""] + list(labels.unique())`). */
  function SearchOptions(labelled: Table): (options: seq<string>)
    requires forall i :: 0 <= i < |labelled.rows| ==> Cell(labelled.rows[i], SearchLabelColumn) != ""
    ensures |options| >= 1 && options[0] == ""
    ensures Distinct(options)
    ensures forall i :: 0 <= i < |labelled.rows| ==> Cell(labelled.rows[i], SearchLabelColumn) in options
    ensures forall x :: x in options[1..] ==> x in Labels(labelled.rows)
    ensures forall i, j :: 1 <= i < j < |options| ==>
              IndexOf(Labels(labelled.rows), options[i]) < IndexOf(Labels(labelled.rows), options[j])
  {
    var labels := Labels(labelled.rows);
    var u := Dedupe(labels);
    var options := [""] + u;
    assert options[1..] == u;
    assert forall i :: 1 <= i < |options| ==> options[i] == u[i - 1];
    forall i | 0 <= i < |u| ensures u[i] != "" {
      assert u[i] in labels;
    }
    forall i | 0 <= i < |labelled.rows| ensures Cell(labelled.rows[i], SearchLabelColumn) in options {
      assert labels[i] in labels;
    }
    options
  }

  /** The asset a chosen label selects: the first record carrying that label
      (`.iloc[0]`), and nothing while the blank option is chosen. */
  function SelectAsset(labelled: Table, chosen: string): (r: Option<Row>)
    ensures chosen == "" ==> r == None
    ensures r.Some? ==> Cell(r.value, SearchLabelColumn) == chosen
    ensures r.Some? <==> chosen != "" && chosen in Labels(labelled.rows)
    ensures r.Some? ==> r.value == labelled.rows[IndexOf(Labels(labelled.rows), chosen)]
  {
    if chosen == "" then None
    else
      var k := IndexOf(Labels(labelled.rows), chosen);
      if k < |labelled.rows| then Some(labelled.rows[k]) else None
  }

  /** The Fleet Nos of the records whose Category is exactly "Tanker", in
      table order. */
  function TankerFleetNos(rows: seq<Row>): (fleet: seq<string>)
    ensures forall x :: x in fleet <==>
              exists i :: 0 <= i < |rows| && Cell(rows[i], CategoryColumn) == "Tanker" && Cell(rows[i], FleetNo) == x
    ensures |fleet| <= |rows|
  {
    if |rows| == 0 then []
    else
      var last := rows[|rows| - 1];
      var front := TankerFleetNos(rows[..|rows| - 1]);
      assert forall i :: 0 <= i < |rows| - 1 ==> rows[..|rows| - 1][i] == rows[i];
      if Cell(last, CategoryColumn) == "Tanker" then front + [Cell(last, FleetNo)] else front
  }

  /** The tanker list keeps table order: the tankers of two stacked tables are
      those of the first followed by those of the second. */
  lemma {:induction false} TankerFleetNosAppend(a: seq<Row>, b: seq<Row>)
    ensures TankerFleetNos(a + b) == TankerFleetNos(a) + TankerFleetNos(b)
    decreases |b|
  {
    if |b| == 0 {
      assert a + b == a;
    } else {
      assert (a + b)[..|a + b| - 1] == a + b[..|b| - 1];
      TankerFleetNosAppend(a, b[..|b| - 1]);
    }
  }

  /** `get_tanker_options`: the Category and Fleet No columns must exist;
      the result is never empty, lists the directory's tankers when there are
      any, and is the default roster otherwise. */
  function TankerOptions(directory: Table): (r: Result<seq<string>, Fault>)
    ensures CategoryColumn !in directory.columns ==> r == Err(ColumnMissing(CategoryColumn))
    ensures CategoryColumn in directory.columns && FleetNo !in directory.columns ==> r == Err(ColumnMissing(FleetNo))
    ensures r.Ok? <==> CategoryColumn in directory.columns && FleetNo in directory.columns
    ensures r.Ok? ==> |r.value| > 0
    ensures r.Ok? && |TankerFleetNos(directory.rows)| > 0 ==> r.value == TankerFleetNos(directory.rows)
    ensures r.Ok? && (forall i :: 0 <= i < |directory.rows| ==> Cell(directory.rows[i], CategoryColumn) != "Tanker") ==>
              r.value == DefaultTankers
  {
    if CategoryColumn !in directory.columns then Err(ColumnMissing(CategoryColumn))
    else if FleetNo !in directory.columns then Err(ColumnMissing(FleetNo))
    else
      var tankers := TankerFleetNos(directory.rows);
      if |tankers| > 0 then
        assert tankers[0] in tankers;
        Ok(tankers)
      else Ok(DefaultTankers)
  }
}

=== FILE: inventory.dfy ===
/** The "Tanker Inventory" page: the balance of each default tanker, from
    the fuel received in the receipts log and the fuel dispensed from it in
    the dispensing log, and the fill gauge drawn for it. */
module Inventory {
  import opened Results
  import opened Sheets
  import opened Numbers
  import opened Directory
  import opened LogEntry

  const TankerNoColumn := "Tanker No"
  const FuelInColumn := "Fuel In (L)"
  const SourceTankerColumn := "Source Tanker"
  const FuelOutColumn := "Fuel Out (L)"

  /** Litres a tanker holds when full. */
  const Capacity: real := 30000.0

  /** The coerced amount a record contributes to the total for `key`. */
  function Contribution(row: Row, keyColumn: string, key: string, amountColumn: string): real {
    if Cell(row, keyColumn) == key then Coerce(Cell(row, amountColumn)) else 0.0
  }

  /** `log[log[keyColumn] == key][amountColumn].sum()` over coerced amounts.
      Records for other keys add nothing, and so does text that is not a
      number. */
  function TotalWhere(rows: seq<Row>, keyColumn: string, key: string, amountColumn: string): (total: real)
    ensures (forall i :: 0 <= i < |rows| ==> Cell(rows[i], keyColumn) != key) ==> total == 0.0
    ensures (forall i :: 0 <= i < |rows| ==> Coerce(Cell(rows[i], amountColumn)) >= 0.0) ==> total >= 0.0
    decreases |rows|
  {
    if |rows| == 0 then 0.0
    else
      var front := rows[..|rows| - 1];
      assert forall i :: 0 <= i < |front| ==> front[i] == rows[i];
      TotalWhere(front, keyColumn, key, amountColumn) + Contribution(rows[|rows| - 1], keyColumn, key, amountColumn)
  }

  /** The total over two stacked logs is the sum of their totals. */
  lemma {:induction false} TotalWhereAppend(a: seq<Row>, b: seq<Row>, keyColumn: string, key: string, amountColumn: string)
    ensures TotalWhere(a + b, keyColumn, key, amountColumn)
         == TotalWhere(a, keyColumn, key, amountColumn) + TotalWhere(b, keyColumn, key, amountColumn)
    decreases |b|
  {
    if |b| == 0 {
      assert a + b == a;
    } else {
      assert (a + b)[..|a + b| - 1] == a + b[..|b| - 1];
      TotalWhereAppend(a, b[..|b| - 1], keyColumn, key, amountColumn);
    }
  }

  /** One more record adds its own contribution. */
  lemma TotalWhereSnoc(rows: seq<Row>, row: Row, keyColumn: string, key: string, amountColumn: string)
    ensures TotalWhere(rows + [row], keyColumn, key, amountColumn)
         == TotalWhere(rows, keyColumn, key, amountColumn) + Contribution(row, keyColumn, key, amountColumn)
  {
    assert (rows + [row])[..|rows|] == rows;
  }

  /** The coerced amount column summed over every record, as `.sum()` adds
      up a column. */
  function TotalAll(rows: seq<Row>, amountColumn: string): (total: real)
    ensures |rows| == 0 ==> total == 0.0
    ensures (forall i :: 0 <= i < |rows| ==> Coerce(Cell(rows[i], amountColumn)) >= 0.0) ==> total >= 0.0
    decreases |rows|
  {
    if |rows| == 0 then 0.0
    else
      var front := rows[..|rows| - 1];
      assert forall i :: 0 <= i < |front| ==> front[i] == rows[i];
      TotalAll(front, amountColumn) + Coerce(Cell(rows[|rows| - 1], amountColumn))
  }

  /** The column total over two stacked logs is the sum of their totals. */
  lemma {:induction false} TotalAllAppend(a: seq<Row>, b: seq<Row>, amountColumn: string)
    ensures TotalAll(a + b, amountColumn) == TotalAll(a, amountColumn) + TotalAll(b, amountColumn)
    decreases |b|
  {
    if |b| == 0 {
      assert a + b == a;
    } else {
      assert (a + b)[..|a + b| - 1] == a + b[..|b| - 1];
      TotalAllAppend(a, b[..|b| - 1], amountColumn);
    }
  }

  /** One more record adds its coerced amount to the column total. */
  lemma TotalAllSnoc(rows: seq<Row>, row: Row, amountColumn: string)
    ensures TotalAll(rows + [row], amountColumn) == TotalAll(rows, amountColumn) + Coerce(Cell(row, amountColumn))
  {
    assert (rows + [row])[..|rows|] == rows;
  }

  /** `log[log[keyColumn] == key]`: the records whose key cell is `key`, in
      log order. */
  function Filter(rows: seq<Row>, keyColumn: string, key: string): (kept: seq<Row>)
    ensures |kept| <= |rows|
    ensures forall i :: 0 <= i < |kept| ==> Cell(kept[i], keyColumn) == key && kept[i] in rows
    ensures forall i :: 0 <= i < |rows| && Cell(rows[i], keyColumn) == key ==> rows[i] in kept
    decreases |rows|
  {
    if |rows| == 0 then []
    else
      var front := rows[..|rows| - 1];
      var last := rows[|rows| - 1];
      assert rows == front + [last];
      var kept := Filter(front, keyColumn, key);
      if Cell(last, keyColumn) == key then kept + [last] else kept
  }

  /** Filtering two stacked logs filters each in turn; with the contract
      for a single record this fixes the order and the multiplicity of the
      kept records. */
  lemma {:induction false} FilterAppend(a: seq<Row>, b: seq<Row>, keyColumn: string, key: string)
    ensures Filter(a + b, keyColumn, key) == Filter(a, keyColumn, key) + Filter(b, keyColumn, key)
    decreases |b|
  {
    if |b| == 0 {
      assert a + b == a;
    } else {
      var front := b[..|b| - 1];
      var last := b[|b| - 1];
      assert (a + b)[..|a + b| - 1] == a + front;
      assert (a + b)[|a + b| - 1] == last;
      FilterAppend(a, front, keyColumn, key);
    }
  }

  /** The keyed total is the column total of the filtered log: summing while
      skipping other keys adds up exactly the records the filter keeps. */
  lemma {:induction false} TotalWhereIsFilteredSum(rows: seq<Row>, keyColumn: string, key: string, amountColumn: string)
    ensures TotalWhere(rows, keyColumn, key, amountColumn) == TotalAll(Filter(rows, keyColumn, key), amountColumn)
    decreases |rows|
  {
    if |rows| > 0 {
      var front := rows[..|rows| - 1];
      var last := rows[|rows| - 1];
      TotalWhereIsFilteredSum(front, keyColumn, key, amountColumn);
      var kept := Filter(front, keyColumn, key);
      if Cell(last, keyColumn) == key {
        assert (kept + [last])[..|kept|] == kept;
      }
    }
  }

  /** Fuel received by `tanker`: nothing when the receipts log is empty or
      has no Tanker No column. */
  function TankerIn(receipts: Table, tanker: string): (total: real)
    ensures IsEmpty(receipts) || TankerNoColumn !in receipts.columns ==> total == 0.0
    ensures !IsEmpty(receipts) && TankerNoColumn in receipts.columns ==>
              total == TotalAll(Filter(receipts.rows, TankerNoColumn, tanker), FuelInColumn)
  {
    TotalWhereIsFilteredSum(receipts.rows, TankerNoColumn, tanker, FuelInColumn);
    if !IsEmpty(receipts) && TankerNoColumn in receipts.columns
    then TotalWhere(receipts.rows, TankerNoColumn, tanker, FuelInColumn)
    else 0.0
  }

  /** Fuel dispensed from `tanker`: nothing when the dispensing log is empty
      or has no Source Tanker column. */
  function TankerOut(dispenses: Table, tanker: string): (total: real)
    ensures IsEmpty(dispenses) || SourceTankerColumn !in dispenses.columns ==> total == 0.0
    ensures !IsEmpty(dispenses) && SourceTankerColumn in dispenses.columns ==>
              total == TotalAll(Filter(dispenses.rows, SourceTankerColumn, tanker), FuelOutColumn)
  {
    TotalWhereIsFilteredSum(dispenses.rows, SourceTankerColumn, tanker, FuelOutColumn);
    if !IsEmpty(dispenses) && SourceTankerColumn in dispenses.columns
    then TotalWhere(dispenses.rows, SourceTankerColumn, tanker, FuelOutColumn)
    else 0.0
  }

  /** The fraction of the gauge filled: the balance over the capacity,
      clamped to [0, 1]. */
  function GaugeLevel(balance: real): (level: real)
    ensures 0.0 <= level <= 1.0
    ensures 0.0 <= balance <= Capacity ==> level == balance / Capacity
    ensures balance <= 0.0 ==> level == 0.0
    ensures balance >= Capacity ==> level == 1.0
  {
    var ratio := balance / Capacity;
    var capped := if ratio < 1.0 then ratio else 1.0;
    if capped > 0.0 then capped else 0.0
  }

  /** More fuel never shows a lower gauge. */
  lemma GaugeMonotone(a: real, b: real)
    requires a <= b
    ensures GaugeLevel(a) <= GaugeLevel(b)
  {
  }

  /** What the page shows for one tanker. */
  datatype Reading = Reading(tanker: string, totalIn: real, totalOut: real, balance: real, level: real)

  function ReadingOf(receipts: Table, dispenses: Table, tanker: string): (r: Reading)
    ensures r.tanker == tanker && r.balance == r.totalIn - r.totalOut
    ensures r.totalIn == TankerIn(receipts, tanker) && r.totalOut == TankerOut(dispenses, tanker)
    ensures r.level == GaugeLevel(r.balance) && 0.0 <= r.level <= 1.0
  {
    var fuelIn := TankerIn(receipts, tanker);
    var fuelOut := TankerOut(dispenses, tanker);
    Reading(tanker, fuelIn, fuelOut, fuelIn - fuelOut, GaugeLevel(fuelIn - fuelOut))
  }

  /** The amount column of a non-empty log is coerced before anything else;
      a log without it fails there. */
  function AmountsReadable(log: Table, amountColumn: string): (r: Result<(), Fault>)
    ensures r.Err? <==> !IsEmpty(log) && amountColumn !in log.columns
    ensures r.Err? ==> r.error == AmountColumnMissing(amountColumn)
  {
    if !IsEmpty(log) && amountColumn !in log.columns then Err(AmountColumnMissing(amountColumn)) else Ok(())
  }

  /** The inventory page: receipts are coerced first, then dispenses; then
      one reading per default tanker, in roster order. */
  function TankerBalances(receipts: Table, dispenses: Table): (r: Result<seq<Reading>, Fault>)
    ensures !IsEmpty(receipts) && FuelInColumn !in receipts.columns ==> r == Err(AmountColumnMissing(FuelInColumn))
    ensures (IsEmpty(receipts) || FuelInColumn in receipts.columns) && !IsEmpty(dispenses) && FuelOutColumn !in dispenses.columns ==>
              r == Err(AmountColumnMissing(FuelOutColumn))
    ensures r.Err? <==> ((!IsEmpty(receipts) && FuelInColumn !in receipts.columns)
                         || (!IsEmpty(dispenses) && FuelOutColumn !in dispenses.columns))
    ensures r.Ok? ==> |r.value| == |DefaultTankers|
    ensures r.Ok? ==> forall i :: 0 <= i < |DefaultTankers| ==> r.value[i] == ReadingOf(receipts, dispenses, DefaultTankers[i])
  {
    match AmountsReadable(receipts, FuelInColumn)
    case Err(e) => Err(e)
    case Ok(_) =>
      match AmountsReadable(dispenses, FuelOutColumn)
      case Err(e) => Err(e)
      case Ok(_) =>
        Ok(seq(|DefaultTankers|, i requires 0 <= i < |DefaultTankers| => ReadingOf(receipts, dispenses, DefaultTankers[i])))
  }

  /** Logging a refill of `volume` litres into `tanker` raises that tanker's
      receipts by exactly `volume`. When the receipts sheet did not yet carry
      the receipts header (a new sheet, or one holding only a header row),
      it is reset first and the refill is the only receipt. */
  lemma RefillAdds(w: Worksheet, tanker: string, station: string, date: string, timestamp: string, volume: nat)
    requires volume >= 1
    ensures TankerIn(ReadSheet(AppendRecord(w, ReceiptHeader, StoredReceipt(tanker, station, date, timestamp, volume))), tanker)
         == (if w.header == ReceiptHeader then TankerIn(ReadSheet(w), tanker) else 0.0) + volume as real
  {
    var row := StoredReceipt(tanker, station, date, timestamp, volume);
    var kept := if w.header == ReceiptHeader then w.records else [];
    StoredHeaderRecord(row, ReceiptHeader);
    ReadAfterAppend(w, ReceiptHeader, row);
    TotalWhereSnoc(kept, row, TankerNoColumn, tanker, FuelInColumn);
    ParseNatText(volume);
  }

  /** A refill into one tanker leaves every other tanker's receipts as they
      were; when the sheet is reset first, they are none. */
  lemma RefillLeavesOthers(w: Worksheet, tanker: string, other: string, station: string, date: string, timestamp: string, volume: nat)
    requires volume >= 1 && other != tanker
    ensures TankerIn(ReadSheet(AppendRecord(w, ReceiptHeader, StoredReceipt(tanker, station, date, timestamp, volume))), other)
         == (if w.header == ReceiptHeader then TankerIn(ReadSheet(w), other) else 0.0)
  {
    var row := StoredReceipt(tanker, station, date, timestamp, volume);
    var kept := if w.header == ReceiptHeader then w.records else [];
    StoredHeaderRecord(row, ReceiptHeader);
    ReadAfterAppend(w, ReceiptHeader, row);
    TotalWhereSnoc(kept, row, TankerNoColumn, other, FuelInColumn);
  }

  /** Logging a dispense from `tanker` raises that tanker's dispensed total
      by the record's coerced litres, so its balance falls by as much. */
  lemma DispenseSubtracts(w: Worksheet, row: Row, tanker: string)
    requires Cell(row, SourceTankerColumn) == tanker
    ensures TankerOut(ReadSheet(AppendRecord(w, DispenseHeader, row)), tanker)
         == (if w.header == DispenseHeader then TankerOut(ReadSheet(w), tanker) else 0.0)
            + Coerce(Cell(row, FuelOutColumn))
  {
    var kept := if w.header == DispenseHeader then w.records else [];
    var stored := Stored(row, DispenseHeader);
    StoredDispenseCells(row);
    ReadAfterAppend(w, DispenseHeader, row);
    TotalWhereSnoc(kept, stored, SourceTankerColumn, tanker, FuelOutColumn);
  }

  /** The tanker and the litres of a dispense survive the projection onto
      the dispensing header. */
  lemma StoredDispenseCells(row: Row)
    ensures Cell(Stored(row, DispenseHeader), SourceTankerColumn) == Cell(row, SourceTankerColumn)
    ensures Cell(Stored(row, DispenseHeader), FuelOutColumn) == Cell(row, FuelOutColumn)
  {
    StoredCell(row, DispenseHeader, 6);
    StoredCell(row, DispenseHeader, 7);
  }

  /** A receipt that names another tanker moves no balance. */
  lemma OtherReceiptIgnored(receipts: Table, row: Row, tanker: string)
    requires TankerNoColumn in receipts.columns && Cell(row, TankerNoColumn) != tanker
    ensures TankerIn(Table(receipts.columns, receipts.rows + [row]), tanker) == TankerIn(receipts, tanker)
  {
    TotalWhereSnoc(receipts.rows, row, TankerNoColumn, tanker, FuelInColumn);
  }

  /** A dispense from another tanker moves no balance. */
  lemma OtherDispenseIgnored(dispenses: Table, row: Row, tanker: string)
    requires SourceTankerColumn in dispenses.columns && Cell(row, SourceTankerColumn) != tanker
    ensures TankerOut(Table(dispenses.columns, dispenses.rows + [row]), tanker) == TankerOut(dispenses, tanker)
  {
    TotalWhereSnoc(dispenses.rows, row, SourceTankerColumn, tanker, FuelOutColumn);
  }

  /** Rows naming a tanker outside the default roster change no balance on
      the inventory page. The amount columns must be present: appending a row
      to an empty log without one turns the page into a fault. */
  lemma OffRosterRowsIgnored(receipts: Table, dispenses: Table, receipt: Row, dispense: Row)
    requires FuelInColumn in receipts.columns && FuelOutColumn in dispenses.columns
    requires TankerNoColumn in receipts.columns && Cell(receipt, TankerNoColumn) !in DefaultTankers
    requires SourceTankerColumn in dispenses.columns && Cell(dispense, SourceTankerColumn) !in DefaultTankers
    ensures TankerBalances(Table(receipts.columns, receipts.rows + [receipt]),
                           Table(dispenses.columns, dispenses.rows + [dispense]))
            == TankerBalances(receipts, dispenses)
  {
    var receipts' := Table(receipts.columns, receipts.rows + [receipt]);
    var dispenses' := Table(dispenses.columns, dispenses.rows + [dispense]);
    forall i | 0 <= i < |DefaultTankers|
      ensures ReadingOf(receipts', dispenses', DefaultTankers[i]) == ReadingOf(receipts, dispenses, DefaultTankers[i])
    {
      OtherReceiptIgnored(receipts, receipt, DefaultTankers[i]);
      OtherDispenseIgnored(dispenses, dispense, DefaultTankers[i]);
    }
    var before := TankerBalances(receipts, dispenses);
    var after := TankerBalances(receipts', dispenses');
    assert before.Ok? && after.Ok?;
    assert after.value == before.value;
  }

  /** A dispense whose amount is not a number is counted as zero litres. */
  lemma UnreadableAmountIgnored(dispenses: Table, row: Row, tanker: string)
    requires SourceTankerColumn in dispenses.columns
    requires ParseDecimal(Cell(row, FuelOutColumn)).None?
    ensures TankerOut(Table(dispenses.columns, dispenses.rows + [row]), tanker) == TankerOut(dispenses, tanker)
  {
    TotalWhereSnoc(dispenses.rows, row, SourceTankerColumn, tanker, FuelOutColumn);
  }

  /** A receipts log holding one refill of 10000 litres into BPS-95. */
  const ExampleReceipts: Table := Table(ReceiptHeader, [map[TankerNoColumn := "BPS-95", FuelInColumn := "10000"]])

  /** A dispensing log holding two dispenses from BPS-95, of 3000 and 1500 litres. */
  const ExampleDispenses: Table := Table(DispenseHeader, [map[SourceTankerColumn := "BPS-95", FuelOutColumn := "3000"],
                                                          map[SourceTankerColumn := "BPS-95", FuelOutColumn := "1500"]])

  /** 10000 litres in, then 3000 and 1500 out, leaves 5500 litres, a gauge
      a little over 18% full. */
  lemma WorkedExample()
    ensures ReadingOf(ExampleReceipts, ExampleDispenses, "BPS-95").balance == 5500.0
    ensures ReadingOf(ExampleReceipts, ExampleDispenses, "BPS-95").level == 5500.0 / 30000.0
  {
    ExampleIn();
    ExampleOut();
  }

  lemma ExampleIn()
    ensures TankerIn(ExampleReceipts, "BPS-95") == 10000.0
  {
    var rows := ExampleReceipts.rows;
    ReceiptLogTotal(rows, "BPS-95");
    ExampleAmounts();
    OneRow(rows[0], TankerNoColumn, FuelInColumn);
  }

  lemma ExampleOut()
    ensures TankerOut(ExampleDispenses, "BPS-95") == 4500.0
  {
    var rows := ExampleDispenses.rows;
    DispenseLogTotal(rows, "BPS-95");
    ExampleAmounts();
    TwoRows(rows[0], rows[1], SourceTankerColumn, FuelOutColumn);
    assert rows == [rows[0], rows[1]];
  }

  /** What each record of the example logs contributes to BPS-95. */
  lemma ExampleAmounts()
    ensures Contribution(ExampleReceipts.rows[0], TankerNoColumn, "BPS-95", FuelInColumn) == 10000.0
    ensures Contribution(ExampleDispenses.rows[0], SourceTankerColumn, "BPS-95", FuelOutColumn) == 3000.0
    ensures Contribution(ExampleDispenses.rows[1], SourceTankerColumn, "BPS-95", FuelOutColumn) == 1500.0
  {
    WholeAmountTexts();
    AmountIs(ExampleReceipts.rows[0], TankerNoColumn, FuelInColumn, 10000);
    AmountIs(ExampleDispenses.rows[0], SourceTankerColumn, FuelOutColumn, 3000);
    AmountIs(ExampleDispenses.rows[1], SourceTankerColumn, FuelOutColumn, 1500);
  }

  /** A non-empty log under the receipts header totals its keyed records. */
  lemma ReceiptLogTotal(rows: seq<Row>, tanker: string)
    requires |rows| > 0
    ensures TankerIn(Table(ReceiptHeader, rows), tanker) == TotalWhere(rows, TankerNoColumn, tanker, FuelInColumn)
  {
    assert ReceiptHeader[2] == TankerNoColumn;
  }

  /** A non-empty log under the dispensing header totals its keyed records. */
  lemma DispenseLogTotal(rows: seq<Row>, tanker: string)
    requires |rows| > 0
    ensures TankerOut(Table(DispenseHeader, rows), tanker) == TotalWhere(rows, SourceTankerColumn, tanker, FuelOutColumn)
  {
    assert DispenseHeader[6] == SourceTankerColumn;
  }

  lemma WholeAmountTexts()
    ensures NatText(10000) == "10000" && NatText(3000) == "3000" && NatText(1500) == "1500"
  {
  }

  /** A record for BPS-95 whose amount cell is the digits of `n`. */
  lemma AmountIs(row: Row, keyColumn: string, amountColumn: string, n: nat)
    requires keyColumn in row && row[keyColumn] == "BPS-95"
    requires amountColumn in row && row[amountColumn] == NatText(n)
    ensures Contribution(row, keyColumn, "BPS-95", amountColumn) == n as real
  {
    ParseNatText(n);
  }

  lemma OneRow(r: Row, keyColumn: string, amountColumn: string)
    ensures TotalWhere([r], keyColumn, "BPS-95", amountColumn) == Contribution(r, keyColumn, "BPS-95", amountColumn)
  {
    assert [r][..0] == [];
  }

  lemma TwoRows(a: Row, b: Row, keyColumn: string, amountColumn: string)
    ensures TotalWhere([a, b], keyColumn, "BPS-95", amountColumn)
         == Contribution(a, keyColumn, "BPS-95", amountColumn) + Contribution(b, keyColumn, "BPS-95", amountColumn)
  {
    assert [a, b][..1] == [a];
    OneRow(a, keyColumn, amountColumn);
  }
}

=== FILE: log_entry.dfy ===
/** The "Log Entry" page: choosing an asset, the meter unit it is read in,
    and the rows a dispense or a refill appends to its worksheet. */
module LogEntry {
  import opened Results
  import opened AsciiText
  import opened Sequences
  import opened Sheets
  import opened Categories
  import opened Numbers
  import opened Directory

  /** A value sent to the sheet: text, or a number typed into a numeric
      widget. */
  datatype Value = Text(text: string) | Number(amount: real)

  /** Categories whose assets carry an hour meter instead of an odometer. */
  const MeterHourCategories: set<string> := {"Equipment", "Machine", "Tanker"}

  /** The unit the meter reading is taken in: "Hours" for a selected asset
      whose category is non-empty and meter-hour, "Km" otherwise. */
  function MeterUnit(category: Option<string>): (unit: string)
    ensures unit == "Hours" || unit == "Km"
    ensures unit == "Hours" <==> category.Some? && category.value in MeterHourCategories
    ensures category.None? || category == Some("") ==> unit == "Km"
  {
    if category.Some? && category.value != "" && category.value in MeterHourCategories then "Hours" else "Km"
  }

  /** A category that selects hours is one the normaliser leaves as it is,
      so it is exactly what the loaded directory stores. */
  lemma HoursCategoryIsStored(category: string)
    requires MeterUnit(Some(category)) == "Hours"
    ensures NormalizeCategory(Some(category)) == category
  {
    CanonicalFixedPoint(category);
  }

  /** Over any text typed into the Category column of the directory, the
      loaded category reads in hours exactly when the alias table maps the
      text's key to Equipment, Machine or Tanker. */
  lemma MeterUnitOfLoadedCategory(raw: string)
    ensures MeterUnit(Some(NormalizeCategory(Some(raw)))) == "Hours"
        <==> AliasGet(CategoryKey(Strip(raw))) in {Some("Equipment"), Some("Machine"), Some("Tanker")}
  {
    var key := CategoryKey(Strip(raw));
    var r := NormalizeCategory(Some(raw));
    if AliasGet(key).Some? {
      AliasHitIsCanonical(raw);
    } else if Title(Strip(raw)) in Allowed {
      TitleFallbackSubsumed(Strip(raw));
    } else {
      PassThrough(raw);
      if r in MeterHourCategories {
        CanonicalKey(r);
      }
    }
  }

  /** "machines" in the directory is read in hours. */
  lemma MachinesReadInHours()
    ensures MeterUnit(Some(NormalizeCategory(Some("machines")))) == "Hours"
  {
    MachinesNormalized();
  }

  lemma MachinesNormalized()
    ensures NormalizeCategory(Some("machines")) == "Machine"
  {
    StripTrimmed("machines");
    MachinesKey();
    MachinesAlias();
    NormalizeVia("machines", "machines", "machines");
  }

  lemma MachinesKey()
    ensures CategoryKey("machines") == "machines"
  {
    KeyOfWord("machines", "machines");
  }

  lemma MachinesAlias()
    ensures AliasGet("machines") == Some("Machine")
  {
    AliasGetCases("machines");
  }

  /** "vehicles" in the directory is read in kilometres. */
  lemma VehiclesReadInKm()
    ensures MeterUnit(Some(NormalizeCategory(Some("vehicles")))) == "Km"
  {
    NormalizeVehicles();
    VehicleReadInKm();
  }

  lemma VehicleReadInKm()
    ensures MeterUnit(Some("Vehicle")) == "Km"
  {
  }

  /** The asset the dispense form works on, read from the chosen record. */
  datatype Selection = Selection(asset: Row, fleetNo: string, category: string)

  /** Choosing a label in the asset picker: the blank option selects
      nothing; a label selects the first record carrying it, whose Fleet No
      and Category are read; reading the Category of a directory without
      that column fails. */
  function Select(labelled: Table, chosen: string): (r: Result<Option<Selection>, Fault>)
    ensures chosen == "" ==> r == Ok(None)
    ensures r.Err? <==> SelectAsset(labelled, chosen).Some? && CategoryColumn !in labelled.columns
    ensures r.Err? ==> r.error == ColumnMissing(CategoryColumn)
    ensures r.Ok? && r.value.Some? ==>
              && SelectAsset(labelled, chosen) == Some(r.value.value.asset)
              && Cell(r.value.value.asset, SearchLabelColumn) == chosen
              && r.value.value.fleetNo == Cell(r.value.value.asset, FleetNo)
              && r.value.value.category == Cell(r.value.value.asset, CategoryColumn)
  {
    match SelectAsset(labelled, chosen)
    case None => Ok(None)
    case Some(row) =>
      if CategoryColumn !in labelled.columns then Err(ColumnMissing(CategoryColumn))
      else Ok(Some(Selection(row, Cell(row, FleetNo), Cell(row, CategoryColumn))))
  }

  /** The record the dispense form builds before writing it: one value per
      column of the dispensing log; Asset ID and Description are read from
      the asset's record, blank when it has none; the meter unit follows the
      selected category. */
  function DispenseEntry(s: Selection, tanker: string, date: string, timestamp: string, fuel: real, meter: real)
    : (entry: map<string, Value>)
    ensures entry.Keys == set h | h in DispenseHeader
  {
    map[
      "Timestamp" := Text(timestamp),
      "Date" := Text(date),
      "Fleet No" := Text(s.fleetNo),
      "Asset ID" := Text(Cell(s.asset, "Asset ID")),
      "Category" := Text(s.category),
      "Description" := Text(Cell(s.asset, DescriptionColumn)),
      "Source Tanker" := Text(tanker),
      "Fuel Out (L)" := Number(fuel),
      "Current Meter" := Number(meter),
      "Meter Unit" := Text(MeterUnit(Some(s.category)))
    ]
  }

  /** What each column of a dispense record holds: the selected asset's
      Fleet No and Category, its Asset ID and Description (blank when the
      record has none), the chosen tanker, the litres and meter reading as
      typed, and "Hours" exactly for a meter-hour category. */
  lemma DispenseEntryFields(s: Selection, tanker: string, date: string, timestamp: string, fuel: real, meter: real)
    ensures var entry := DispenseEntry(s, tanker, date, timestamp, fuel, meter);
      && entry["Fleet No"] == Text(s.fleetNo) && entry["Category"] == Text(s.category)
      && entry["Asset ID"] == Text(if "Asset ID" in s.asset then s.asset["Asset ID"] else "")
      && entry["Description"] == Text(if DescriptionColumn in s.asset then s.asset[DescriptionColumn] else "")
      && entry["Source Tanker"] == Text(tanker) && entry["Fuel Out (L)"] == Number(fuel)
      && entry["Current Meter"] == Number(meter)
      && (entry["Meter Unit"] == Text("Hours") <==> s.category in MeterHourCategories)
      && (entry["Meter Unit"] == Text("Km") <==> s.category !in MeterHourCategories)
  {
  }

  /** Why a submission writes nothing. */
  datatype Refusal = NoFleetSelected

  /** Submitting the dispense form: refused unless an asset with a non-empty
      Fleet No is selected; otherwise the row appended to the dispensing log,
      in its column order. The widgets guarantee at least one litre and a
      non-negative meter reading. */
  function SubmitDispense(selection: Option<Selection>, tanker: string, date: string, timestamp: string,
                          fuel: real, meter: real): (r: Result<seq<Value>, Refusal>)
    requires fuel >= 1.0 && meter >= 0.0
    ensures r.Err? <==> selection.None? || selection.value.fleetNo == ""
    ensures r.Ok? ==> |r.value| == |DispenseHeader|
    ensures r.Ok? ==> forall i :: 0 <= i < |DispenseHeader| ==>
              r.value[i] == DispenseEntry(selection.value, tanker, date, timestamp, fuel, meter)[DispenseHeader[i]]
    ensures r.Ok? ==> && r.value[2] == Text(selection.value.fleetNo)
                      && r.value[6] == Text(tanker)
                      && r.value[7] == Number(fuel)
                      && r.value[9] == Text(MeterUnit(Some(selection.value.category)))
  {
    if selection.None? || selection.value.fleetNo == "" then Err(NoFleetSelected)
    else
      DispenseRowNames(selection.value, tanker, date, timestamp, fuel, meter);
      DispenseRowAmounts(selection.value, tanker, date, timestamp, fuel, meter);
      Ok(ProjectRow(DispenseEntry(selection.value, tanker, date, timestamp, fuel, meter), DispenseHeader, Text("")))
  }

  /** The written dispense row carries the asset's Fleet No and the chosen
      tanker in the columns the dashboard and the inventory group by. */
  lemma DispenseRowNames(s: Selection, tanker: string, date: string, timestamp: string, fuel: real, meter: real)
    ensures var row := ProjectRow(DispenseEntry(s, tanker, date, timestamp, fuel, meter), DispenseHeader, Text(""));
      row[2] == Text(s.fleetNo) && row[6] == Text(tanker)
  {
    var entry := DispenseEntry(s, tanker, date, timestamp, fuel, meter);
    assert DispenseHeader[2] == "Fleet No" && DispenseHeader[6] == "Source Tanker";
    assert entry["Fleet No"] == Text(s.fleetNo) && entry["Source Tanker"] == Text(tanker);
  }

  /** The written dispense row carries the litres as typed and the meter
      unit of the asset's category. */
  lemma DispenseRowAmounts(s: Selection, tanker: string, date: string, timestamp: string, fuel: real, meter: real)
    ensures var row := ProjectRow(DispenseEntry(s, tanker, date, timestamp, fuel, meter), DispenseHeader, Text(""));
      row[7] == Number(fuel) && row[9] == Text(MeterUnit(Some(s.category)))
  {
    var entry := DispenseEntry(s, tanker, date, timestamp, fuel, meter);
    assert DispenseHeader[7] == "Fuel Out (L)" && DispenseHeader[9] == "Meter Unit";
    assert entry["Fuel Out (L)"] == Number(fuel) && entry["Meter Unit"] == Text(MeterUnit(Some(s.category)));
  }

  /** The two log layouts name each column once. */
  lemma DispenseHeaderDistinct()
    ensures Distinct(DispenseHeader)
  {
  }

  lemma ReceiptHeaderDistinct()
    ensures Distinct(ReceiptHeader)
  {
  }

  /** The appended dispense row, read back under its header, is the record
      the form built: every field lands in its own column. */
  lemma DispenseRoundTrip(selection: Option<Selection>, tanker: string, date: string, timestamp: string, fuel: real, meter: real)
    requires fuel >= 1.0 && meter >= 0.0
    requires selection.Some? && selection.value.fleetNo != ""
    ensures RecordOf(DispenseHeader, SubmitDispense(selection, tanker, date, timestamp, fuel, meter).value)
         == DispenseEntry(selection.value, tanker, date, timestamp, fuel, meter)
  {
    DispenseHeaderDistinct();
    ProjectRoundTrip(DispenseEntry(selection.value, tanker, date, timestamp, fuel, meter), DispenseHeader, Text(""));
  }

  /** The record the refill form builds; the volume widget takes whole
      litres, at least one. */
  function ReceiptEntry(tanker: string, station: string, date: string, timestamp: string, volume: nat)
    : (entry: map<string, Value>)
    ensures entry.Keys == set h | h in ReceiptHeader
    ensures entry["Tanker No"] == Text(tanker) && entry["Source Station"] == Text(station)
    ensures entry["Fuel In (L)"] == Number(volume as real)
  {
    map[
      "Timestamp" := Text(timestamp),
      "Date" := Text(date),
      "Tanker No" := Text(tanker),
      "Source Station" := Text(station),
      "Fuel In (L)" := Number(volume as real)
    ]
  }

  /** Logging a refill: the row appended to the receipts log, in its column
      order. Nothing is refused; the station may be left blank. */
  function LogRefill(tanker: string, station: string, date: string, timestamp: string, volume: nat): (row: seq<Value>)
    requires volume >= 1
    ensures |row| == |ReceiptHeader|
    ensures forall i :: 0 <= i < |ReceiptHeader| ==>
              row[i] == ReceiptEntry(tanker, station, date, timestamp, volume)[ReceiptHeader[i]]
    ensures row[2] == Text(tanker) && row[3] == Text(station) && row[4] == Number(volume as real)
  {
    ProjectRow(ReceiptEntry(tanker, station, date, timestamp, volume), ReceiptHeader, Text(""))
  }

  /** The appended receipt row, read back under its header, is the record
      the form built. */
  lemma ReceiptRoundTrip(tanker: string, station: string, date: string, timestamp: string, volume: nat)
    requires volume >= 1
    ensures RecordOf(ReceiptHeader, LogRefill(tanker, station, date, timestamp, volume))
         == ReceiptEntry(tanker, station, date, timestamp, volume)
  {
    ReceiptHeaderDistinct();
    ProjectRoundTrip(ReceiptEntry(tanker, station, date, timestamp, volume), ReceiptHeader, Text(""));
  }

  /** How a written value reads back as cell text; a whole number of litres
      shows its decimal digits. */
  function Shown(v: Value): (s: string)
    requires v.Number? ==> v.amount.Floor as real == v.amount && v.amount >= 0.0
  {
    match v
    case Text(s) => s
    case Number(x) => NatText(x.Floor as nat)
  }

  /** The receipts-log record a refill leaves behind, as the inventory page
      reads it. */
  function StoredReceipt(tanker: string, station: string, date: string, timestamp: string, volume: nat): (row: Row)
    requires volume >= 1
    ensures row.Keys == set h | h in ReceiptHeader
    ensures row["Tanker No"] == tanker && row["Fuel In (L)"] == NatText(volume)
  {
    var entry := ReceiptEntry(tanker, station, date, timestamp, volume);
    map k | k in entry :: Shown(entry[k])
  }
}

=== FILE: numbers.dfy ===
/** Numeric coercion of sheet cells: `pd.to_numeric(..., errors="coerce")`
    followed by `.fillna(0)`. A cell whose text is a plain decimal number
    (optional sign, digits, optional fraction) yields its value; any other
    text yields 0. */
module Numbers {
  import opened Results
  import opened Sequences

  predicate IsDigit(c: char) { '0' <= c <= '9' }

  predicate AllDigits(s: string) {
    forall i :: 0 <= i < |s| ==> IsDigit(s[i])
  }

  function DigitValue(c: char): nat
    requires IsDigit(c)
  {
    c as int - '0' as int
  }

  function DigitChar(d: nat): (c: char)
    requires d < 10
    ensures IsDigit(c) && DigitValue(c) == d
  {
    ('0' as int + d) as char
  }

  /** The value of a string of decimal digits, most significant first. */
  function DigitsValue(s: string): nat
    requires AllDigits(s)
  {
    if |s| == 0 then 0 else 10 * DigitsValue(s[..|s| - 1]) + DigitValue(s[|s| - 1])
  }

  function Pow10(n: nat): (p: nat)
    ensures p >= 1
  {
    if n == 0 then 1 else 10 * Pow10(n - 1)
  }

  /** The value of a decimal written as whole digits, a point and fraction
      digits: the whole part plus the fraction's digits over the matching
      power of ten. */
  function DecimalValue(whole: string, fraction: string): (v: real)
    requires AllDigits(whole) && AllDigits(fraction)
    ensures v >= 0.0
    ensures |fraction| == 0 ==> v == DigitsValue(whole) as real
  {
    DigitsValue(whole) as real + DigitsValue(fraction) as real / Pow10(|fraction|) as real
  }

  /** Digits with at most one decimal point and at least one digit, such as
      "12", "12.5", "12." and ".5". */
  predicate PlainUnsigned(body: string) {
    && (forall i :: 0 <= i < |body| ==> IsDigit(body[i]) || body[i] == '.')
    && (forall i, j :: 0 <= i < j < |body| && body[i] == '.' ==> body[j] != '.')
    && (exists i :: 0 <= i < |body| && IsDigit(body[i]))
  }

  /** A plain decimal: an optional sign before an unsigned plain decimal. */
  predicate PlainDecimal(s: string) {
    |s| > 0 && if s[0] == '-' || s[0] == '+' then PlainUnsigned(s[1..]) else PlainUnsigned(s)
  }

  /** An unsigned plain decimal: digits with at most one decimal point and
      at least one digit. */
  function ParseUnsigned(body: string): (r: Option<real>)
    ensures r.Some? ==> r.value >= 0.0
    ensures r.Some? ==> |body| > 0 && forall i :: 0 <= i < |body| ==> IsDigit(body[i]) || body[i] == '.'
  {
    var dot := IndexOf(body, '.');
    var whole := body[..dot];
    var fraction := if dot < |body| then body[dot + 1..] else "";
    if |whole| + |fraction| == 0 || !AllDigits(whole) || !AllDigits(fraction) then None
    else
      DecimalChars(body, dot);
      Some(DecimalValue(whole, fraction))
  }

  /** Digits on both sides of the first point leave nothing but digits and
      that point. */
  lemma DecimalChars(body: string, dot: nat)
    requires dot <= |body| && (dot < |body| ==> body[dot] == '.')
    requires AllDigits(body[..dot]) && (dot < |body| ==> AllDigits(body[dot + 1..]))
    ensures forall i :: 0 <= i < |body| ==> IsDigit(body[i]) || body[i] == '.'
  {
    forall i | 0 <= i < |body| ensures IsDigit(body[i]) || body[i] == '.' {
      if i < dot {
        assert body[i] == body[..dot][i];
      } else if i > dot {
        assert body[i] == body[dot + 1..][i - dot - 1];
      }
    }
  }

  /** The text of a number as pandas parses it: an optional sign, then an
      unsigned plain decimal. */
  function ParseDecimal(s: string): (r: Option<real>)
    ensures r.Some? <==> PlainDecimal(s)
    ensures r.Some? ==> |s| > 0 && forall i :: 0 <= i < |s| ==> IsDigit(s[i]) || s[i] in "+-."
    ensures r.Some? && |s| > 0 && s[0] != '-' ==> r.value >= 0.0
  {
    if |s| > 0 && (s[0] == '-' || s[0] == '+') then
      ParseUnsignedAccepts(s[1..]);
      match ParseUnsigned(s[1..])
      case None => None
      case Some(m) =>
        assert forall i :: 1 <= i < |s| ==> s[i] == s[1..][i - 1];
        Some(if s[0] == '-' then -m else m)
    else
      ParseUnsignedAccepts(s);
      ParseUnsigned(s)
  }

  /** Exactly the unsigned plain decimals are read: "1.2.3", "." and "" are
      refused. */
  lemma ParseUnsignedAccepts(body: string)
    ensures ParseUnsigned(body).Some? <==> PlainUnsigned(body)
  {
    var dot := IndexOf(body, '.');
    var whole := body[..dot];
    var fraction := if dot < |body| then body[dot + 1..] else "";
    if ParseUnsigned(body).Some? {
      DecimalChars(body, dot);
      forall i, j | 0 <= i < j < |body| && body[i] == '.' ensures body[j] != '.' {
        assert i >= dot;
        if i > dot {
          assert body[i] == fraction[i - dot - 1];
        }
        assert body[j] == fraction[j - dot - 1];
      }
      if |whole| > 0 {
        assert IsDigit(body[0]);
      } else {
        assert IsDigit(body[dot + 1]);
      }
    }
    if PlainUnsigned(body) {
      forall i | 0 <= i < |whole| ensures IsDigit(whole[i]) {
        assert whole[i] == body[i] != '.';
      }
      forall i | 0 <= i < |fraction| ensures IsDigit(fraction[i]) {
        assert fraction[i] == body[dot + 1 + i] && body[dot] == '.';
      }
      var k :| 0 <= k < |body| && IsDigit(body[k]);
      if k < dot {
        assert whole[k] == body[k];
      } else {
        assert k > dot && fraction[k - dot - 1] == body[k];
      }
    }
  }

  /** Text that starts with a digit or a point is read unsigned. */
  lemma ParseNoSign(body: string)
    requires |body| > 0 && (IsDigit(body[0]) || body[0] == '.')
    ensures ParseDecimal(body) == ParseUnsigned(body)
  {
  }

  /** A minus sign negates the unsigned decimal behind it; a plus sign
      leaves it as it is. */
  lemma ParseSignChar(sign: char, body: string)
    requires sign == '-' || sign == '+'
    ensures ParseUnsigned(body).None? ==> ParseDecimal([sign] + body).None?
    ensures ParseUnsigned(body).Some? ==>
              ParseDecimal([sign] + body) == Some(if sign == '-' then -ParseUnsigned(body).value else ParseUnsigned(body).value)
  {
    assert ([sign] + body)[1..] == body;
  }

  /** Digits, a point and digits read as an unsigned decimal. */
  lemma UnsignedFraction(w: string, f: string)
    requires AllDigits(w) && AllDigits(f) && |w| + |f| > 0
    ensures ParseUnsigned(w + "." + f) == Some(DecimalValue(w, f))
  {
    var body := w + "." + f;
    assert body[..|w|] == w && body[|w| + 1..] == f;
    assert body[|w|] == '.';
    assert forall j :: 0 <= j < |w| ==> body[j] == w[j];
    assert IndexOf(body, '.') == |w|;
  }

  /** Digits alone read as an unsigned whole number. */
  lemma UnsignedWhole(w: string)
    requires AllDigits(w) && |w| > 0
    ensures ParseUnsigned(w) == Some(DigitsValue(w) as real)
  {
    assert forall j :: 0 <= j < |w| ==> w[j] != '.';
    assert IndexOf(w, '.') == |w|;
    assert w[..|w|] == w;
  }

  /** Digits, a point and digits, without a sign, parse to their value. */
  lemma ParseFraction(w: string, f: string)
    requires AllDigits(w) && AllDigits(f) && |w| + |f| > 0
    ensures ParseDecimal(w + "." + f) == Some(DecimalValue(w, f))
  {
    FractionStart(w, f);
    UnsignedFraction(w, f);
    ParseNoSign(w + "." + f);
  }

  lemma FractionStart(w: string, f: string)
    requires AllDigits(w)
    ensures IsDigit((w + "." + f)[0]) || (w + "." + f)[0] == '.'
  {
    if |w| > 0 {
      assert (w + "." + f)[0] == w[0];
    }
  }

  /** Digits alone, without a sign, parse to their value. */
  lemma ParseWhole(w: string)
    requires AllDigits(w) && |w| > 0
    ensures ParseDecimal(w) == Some(DigitsValue(w) as real)
  {
    UnsignedWhole(w);
    ParseNoSign(w);
  }

  /** `to_numeric(errors="coerce").fillna(0)` for one cell: the parsed
      value, or 0 for text that is not a plain decimal. */
  function Coerce(s: string): real
  {
    match ParseDecimal(s)
    case Some(v) => v
    case None => 0.0
  }

  /** The decimal text of a natural number, as a sheet shows a whole amount. */
  function NatText(n: nat): (s: string)
    ensures |s| > 0 && AllDigits(s)
  {
    if n < 10 then [DigitChar(n)] else NatText(n / 10) + [DigitChar(n % 10)]
  }

  /** Digits read back give the number they were written from. */
  lemma {:induction false} NatTextValue(n: nat)
    ensures DigitsValue(NatText(n)) == n
  {
    if n >= 10 {
      NatTextValue(n / 10);
      var s := NatText(n);
      assert s[..|s| - 1] == NatText(n / 10);
    }
  }

  /** Round trip: a whole amount written as text parses back to itself. */
  lemma ParseNatText(n: nat)
    ensures ParseDecimal(NatText(n)) == Some(n as real)
  {
    NatTextValue(n);
    ParseWhole(NatText(n));
  }

  /** Text with a character that no number contains is coerced to 0. */
  lemma CoerceNonNumeric(s: string, i: nat)
    requires i < |s| && !IsDigit(s[i]) && s[i] !in "+-."
    ensures Coerce(s) == 0.0
  {
  }
}

=== FILE: results.dfy ===
/** Failure-carrying values shared by the whole model.
    `Option` stands for a value pandas may report as missing (`pd.isna`, an
    empty selection); `Result` stands for a computation that either produces a
    value or raises. */
module Results {

  datatype Option<+T> = None | Some(value: T)

  datatype Result<+T, +E> = Ok(value: T) | Err(error: E)
}

=== FILE: sequences.dfy ===
/** Sequence facts shared by the sheet, directory and dashboard models:
    repetition-freeness, first occurrence, and `unique()`. */
module Sequences {

  predicate Distinct<T(==)>(s: seq<T>) {
    forall i, j :: 0 <= i < j < |s| ==> s[i] != s[j]
  }

  /** Dropping the last element keeps a sequence repetition-free, and the
      dropped element occurs nowhere before it. */
  lemma DistinctInit<T>(s: seq<T>)
    requires Distinct(s) && |s| > 0
    ensures Distinct(s[..|s| - 1]) && s[|s| - 1] !in s[..|s| - 1]
  {
  }

  /** In a repetition-free sequence, a value occurs either before the last
      position or at it, never both. */
  lemma DistinctLast<T>(s: seq<T>, x: T)
    requires Distinct(s) && |s| > 0
    ensures x in s <==> x in s[..|s| - 1] || x == s[|s| - 1]
    ensures !(x in s[..|s| - 1] && x == s[|s| - 1])
  {
    assert s == s[..|s| - 1] + [s[|s| - 1]];
  }

  /** Position of the first occurrence of `x` in `s`, or `|s|` when there is none. */
  function IndexOf<T(==)>(s: seq<T>, x: T): (k: nat)
    ensures k <= |s|
    ensures k < |s| ==> s[k] == x
    ensures forall j :: 0 <= j < k ==> s[j] != x
  {
    if |s| == 0 then 0
    else if s[0] == x then 0
    else 1 + IndexOf(s[1..], x)
  }

  /** The first occurrence of `x` stays where it is when the sequence grows. */
  lemma IndexOfPrefix<T>(s: seq<T>, n: nat, x: T)
    requires n <= |s| && x in s[..n]
    ensures IndexOf(s, x) == IndexOf(s[..n], x) < n
  {
    var k := IndexOf(s[..n], x);
    assert s[..n][k] == x;
    assert forall j :: 0 <= j < k ==> s[j] == s[..n][j];
  }

  /** A value met for the first time at position `n` has its first
      occurrence there. */
  lemma IndexOfFirst<T>(s: seq<T>, n: nat, x: T)
    requires n < |s| && s[n] == x && x !in s[..n]
    ensures IndexOf(s, x) == n
  {
    assert forall j :: 0 <= j < n ==> s[j] == s[..n][j];
  }

  /** `Series.unique()`: each value once, in order of first appearance. */
  function Dedupe<T(==,!new)>(s: seq<T>): (d: seq<T>)
    ensures Distinct(d)
    ensures forall x :: x in d <==> x in s
    ensures forall i, j :: 0 <= i < j < |d| ==> IndexOf(s, d[i]) < IndexOf(s, d[j])
    decreases |s|
  {
    if |s| == 0 then []
    else
      var n := |s| - 1;
      var front := Dedupe(s[..n]);
      var last := s[n];
      assert forall x :: x in s <==> x in s[..n] || x == last by {
        assert s == s[..n] + [last];
      }
      forall x | x in front ensures IndexOf(s, x) == IndexOf(s[..n], x) < n {
        IndexOfPrefix(s, n, x);
      }
      if last in front then front
      else
        IndexOfFirst(s, n, last);
        front + [last]
  }

  /** Deduplicating one more element appends it exactly when it is new. */
  lemma DedupeSnoc<T(!new)>(s: seq<T>, x: T)
    ensures Dedupe(s + [x]) == if x in s then Dedupe(s) else Dedupe(s) + [x]
  {
    assert (s + [x])[..|s|] == s;
  }

  /** Deduplication never lengthens. */
  lemma {:induction false} DedupeShorter<T(!new)>(s: seq<T>)
    ensures |Dedupe(s)| <= |s|
    decreases |s|
  {
    if |s| > 0 {
      DedupeShorter(s[..|s| - 1]);
    }
  }

  /** A sequence without repetitions has as many distinct values as
      elements. */
  lemma {:induction false} DistinctCardinality<T>(s: seq<T>)
    requires Distinct(s)
    ensures |set x | x in s| == |s|
    decreases |s|
  {
    if |s| > 0 {
      var front := s[..|s| - 1];
      var last := s[|s| - 1];
      assert Distinct(front);
      DistinctCardinality(front);
      assert (set x | x in s) == (set x | x in front) + {last} by {
        assert s == front + [last];
      }
      assert last !in front;
    }
  }
}

=== FILE: sheets.dfy ===
/** Worksheets as the application sees them: tables of text cells read with
    `get_all_records`, the fixed column layouts of the two logs, and the
    projection of a record onto a header that `append_dict` writes. */
module Sheets {
  import opened Sequences

  /** One record: column name to cell text. */
  type Row = map<string, string>

  /** A DataFrame built from a worksheet: its column names and its records. */
  datatype Table = Table(columns: seq<string>, rows: seq<Row>)

  /** Why a pandas step raises instead of producing a value. */
  datatype Fault =
    | ColumnMissing(column: string)        // `df[column]` on an absent column: KeyError
    | AmountColumnMissing(column: string)  // `to_numeric(df.get(column)).fillna(0)` on an absent column

  /** `DataFrame.empty`: no rows or no columns. */
  predicate IsEmpty(t: Table) {
    |t.rows| == 0 || |t.columns| == 0
  }

  /** A worksheet as stored: its first row, and the records below it keyed
      by that row's columns, as `get_all_records` returns them. */
  datatype Worksheet = Worksheet(header: seq<string>, records: seq<Row>)

  /** `ws_to_df`: the records as a table under the sheet's first row; a sheet
      without records reads as a table with neither columns nor rows. */
  function ReadSheet(w: Worksheet): (t: Table)
    ensures IsEmpty(t) <==> |w.records| == 0 || |w.header| == 0
    ensures |w.records| == 0 ==> t == Table([], [])
    ensures t.rows == w.records
    ensures |w.records| > 0 ==> t.columns == w.header
  {
    if |w.records| > 0 then Table(w.header, w.records) else Table([], [])
  }

  /** `append_dict` after `ensure_header`: a sheet whose first row is not the
      header is cleared and given the header before the record is appended,
      so only records already under the right header survive. The record is
      written as its projection onto the header, so it reads back with
      exactly the header's columns: its own value where it has one, blank
      where it has none, and none of its other keys. */
  function AppendRecord(w: Worksheet, header: seq<string>, record: Row): (r: Worksheet)
    ensures r.header == header
    ensures |r.records| > 0
    ensures r.records[|r.records| - 1].Keys == set h | h in header
    ensures forall h :: h in header ==> r.records[|r.records| - 1][h] == Cell(record, h)
    ensures w.header == header ==> r.records == w.records + [Stored(record, header)]
    ensures w.header != header ==> r.records == [Stored(record, header)]
  {
    var stored := Stored(record, header);
    if w.header == header then Worksheet(header, w.records + [stored]) else Worksheet(header, [stored])
  }

  /** The record `get_all_records` returns for the row `append_dict` wrote
      for `record`: each header column with the record's value, or blank. */
  function Stored(record: Row, header: seq<string>): (stored: Row)
    ensures stored.Keys == set h | h in header
    ensures forall h :: h in header ==> stored[h] == Cell(record, h)
  {
    ProjectReadBack(record, header, "");
    RecordOf(header, ProjectRow(record, header, ""))
  }

  /** The stored record keeps the record's cell in every header column. */
  lemma StoredCell(record: Row, header: seq<string>, i: nat)
    requires i < |header|
    ensures Cell(Stored(record, header), header[i]) == Cell(record, header[i])
  {
    assert header[i] in header;
  }

  /** A record that already has exactly the header's columns is stored as
      it is. */
  lemma StoredHeaderRecord(record: Row, header: seq<string>)
    requires record.Keys == set h | h in header
    ensures Stored(record, header) == record
  {
    var stored := Stored(record, header);
    assert forall h :: h in record ==> stored[h] == Cell(record, h) == record[h];
  }

  /** Reading a sheet back after a record is appended: the earlier records
      that kept their header, then the stored record, under the header. */
  lemma ReadAfterAppend(w: Worksheet, header: seq<string>, record: Row)
    requires |header| > 0
    ensures ReadSheet(AppendRecord(w, header, record))
         == Table(header, (if w.header == header then ReadSheet(w).rows else []) + [Stored(record, header)])
    ensures !IsEmpty(ReadSheet(AppendRecord(w, header, record)))
  {
  }

  /** The text of a cell; a record always carries every column of its table,
      so the fallback is never used on a table read from a sheet. */
  function Cell(row: Row, column: string): string {
    if column in row then row[column] else ""
  }

  /** Column layout of the "Tanker Dispensing" worksheet. */
  const DispenseHeader: seq<string> := [
    "Timestamp", "Date", "Fleet No", "Asset ID", "Category", "Description",
    "Source Tanker", "Fuel Out (L)", "Current Meter", "Meter Unit"
  ]

  /** Column layout of the "Tanker Receipts" worksheet. */
  const ReceiptHeader: seq<string> := ["Timestamp", "Date", "Tanker No", "Source Station", "Fuel In (L)"]

  /** `[row_dict.get(h, blank) for h in header]`, the row `append_dict` sends:
      one cell per header column, in header order, blank where the record
      has no value, and nothing for keys outside the header. */
  function ProjectRow<V>(record: map<string, V>, header: seq<string>, blank: V): (cells: seq<V>)
    ensures |cells| == |header|
    ensures forall i :: 0 <= i < |header| && header[i] in record ==> cells[i] == record[header[i]]
    ensures forall i :: 0 <= i < |header| && header[i] !in record ==> cells[i] == blank
  {
    if |header| == 0 then []
    else
      var first := if header[0] in record then record[header[0]] else blank;
      [first] + ProjectRow(record, header[1..], blank)
  }

  /** Reading a row back under its header, as `get_all_records` pairs each
      header column with the cell below it. */
  function RecordOf<V>(header: seq<string>, cells: seq<V>): (record: map<string, V>)
    requires |cells| == |header|
    ensures record.Keys == set h | h in header
    decreases |header|
  {
    if |header| == 0 then map[]
    else RecordOf(header[1..], cells[1..])[header[0] := cells[0]]
  }

  /** The record read back maps each header column to the cell at its position. */
  lemma {:induction false} RecordOfAt<V>(header: seq<string>, cells: seq<V>, i: nat)
    requires |cells| == |header| && Distinct(header) && i < |header|
    ensures RecordOf(header, cells)[header[i]] == cells[i]
    decreases |header|
  {
    if i > 0 {
      assert header[1..][i - 1] == header[i];
      assert header[0] != header[i];
      RecordOfAt(header[1..], cells[1..], i - 1);
    }
  }

  /** Each header column with the record's value, or the blank where the
      record has none. */
  function Projected<V>(record: map<string, V>, header: seq<string>, blank: V): map<string, V> {
    map h | h in header :: if h in record then record[h] else blank
  }

  lemma ProjectedCons<V>(record: map<string, V>, header: seq<string>, blank: V)
    requires |header| > 0
    ensures Projected(record, header, blank)
         == Projected(record, header[1..], blank)[header[0] := if header[0] in record then record[header[0]] else blank]
  {
    assert forall h :: h in header <==> h == header[0] || h in header[1..] by {
      assert header == [header[0]] + header[1..];
    }
  }

  /** Reading back the row written for any record gives, for each header
      column, the record's value or the blank; repeated header columns
      carry equal cells, so the first one read is as good as any. */
  lemma {:induction false} ProjectReadBack<V>(record: map<string, V>, header: seq<string>, blank: V)
    ensures RecordOf(header, ProjectRow(record, header, blank)) == Projected(record, header, blank)
    decreases |header|
  {
    if |header| > 0 {
      assert ProjectRow(record, header, blank)[1..] == ProjectRow(record, header[1..], blank);
      ProjectReadBack(record, header[1..], blank);
      ProjectedCons(record, header, blank);
    }
  }

  /** Round trip: a record whose keys are exactly the header columns is
      recovered from the row `append_dict` writes for it. */
  lemma ProjectRoundTrip<V>(record: map<string, V>, header: seq<string>, blank: V)
    requires record.Keys == set h | h in header
    ensures RecordOf(header, ProjectRow(record, header, blank)) == record
  {
    ProjectReadBack(record, header, blank);
  }

  /** Keys outside the header do not reach the sheet: the written row depends
      only on the record restricted to the header columns. */
  lemma ProjectIgnoresOtherKeys<V>(record: map<string, V>, header: seq<string>, blank: V)
    ensures ProjectRow(record, header, blank)
         == ProjectRow(map k | k in record && k in header :: record[k], header, blank)
  {
  }
}
